=== FILE: README.md ===
# Feature estimator — a Dafny model of its stores, summaries and API envelope

The feature estimator is a small Next.js application. It keeps a list of
features per project and a table of effort tiers. A tier is a size label
with a day count and a daily rate. Each feature is priced by the first tier
whose label matches its effort. The summary panel groups the features by
priority: Must, Should and Could. The state lives in Zustand stores. Some
stores are purely local. Others call a JSON API whose routes answer with
`{ success, data }` or `{ success: false, error }`.

This project models that core as pure Dafny functions over immutable
datatypes, and proves what the code promises about it. Each store
operation is a transition from the state before the call to the state
after it. For the asynchronous operations, the gateway's answer is an
explicit input:

- `Outcome`, either `Ok(value)` or `Err(thrown)`, for the API client;
- `HttpReply` for direct `fetch` calls;
- the parsed `Envelope` where a store reads the body itself.

Ids made from the clock are parameters. Numbers are natural numbers.

Modules, one per source file plus four shared ones:

- `Outcomes`: `Option`, thrown values, and `Outcome`.
- `Lists`: an order-preserving filter and its lemmas.
- `Domain`: the records, and `{ ...x, ...patch }` merges as `Option`-field patches.
- `Costing`: the tier lookup and cost rule, and the reference sums.
- `Summary` (components/summary.tsx): the three-bucket summary and its totals.
- `FeatureEstimator` (components/feature-estimator.tsx): the sparse per-priority summary, plus the add and edit requests.
- `LocalStore` (lib/store/index.ts): the local store.
- `EstimationStore` (lib/store/feature-store.ts): the remote-backed store.
- `LegacyProjectStore` (lib/store.ts) and `ProjectStore` (lib/store/project-store.ts): the project stores.
- `EffortEditor` (src/components/effort-config.tsx): the optimistic tier editor.
- `ApiUtils` (lib/api-utils.ts) and `ApiClient` (lib/api-client.ts): the two ends of the envelope.

The code behaves differently from what a reader might expect in three places:

- `updateFeature` in the remote store is not optimistic. It merges the request's own patch only after the call succeeds, and it discards the server's copy. `EstimationStore.UpdateFeatureIgnoresReply` states this.
- Switching project does not clear the feature list. A failed fetch for the new project leaves the old project's features on show (`EstimationStore.FailedFetchKeepsPreviousFeatures`).
- The feature table imports `@/lib/store`, and so does the effort editor. The feature table's calls match the local store (lib/store/index.ts), so its requests are modelled against `LocalStore`. The effort editor reads `isLoading`, `error` and `fetchEffortConfigs`, which only the remote store has, so it is modelled against `EstimationStore`.

## Model

| member | source | states |
|---|---|---|
| Costing.FindConfig | components/feature-estimator.tsx:46-49 | The lookup fails exactly when no tier carries the label; otherwise it yields the first tier carrying it. |
| Costing.CostOf | components/summary.tsx:25-28 | The cost of a label is days times rate of the first tier carrying it, and 0 when none does. |
| Costing.DaysOf | components/summary.tsx:34-36 | The days of a label are those of the first tier carrying it, and 0 when none does. |
| Summary.AccumulateMatchesReference | components/summary.tsx:32-43 | The record the reduce builds holds, for every priority that does not name an `Object.prototype` member, exactly the count, cost and days of the features with that priority, and has a key only for priorities that occur. |
| Summary.CalculateSummary | components/summary.tsx:30-50 | Exactly three entries, Must, Should, Could in that order, each the count, cost and days of the features of that priority, for every input including the empty list. |
| Summary.SummaryFollowsPriorityOrder | components/summary.tsx:8 | The entries carry the priorities of `priorityOrder`, position by position. |
| Summary.AbsentPriorityIsZero | components/summary.tsx:46-49 | A priority that no feature carries still gets its entry, with all three numbers zero. |
| Summary.UnlistedPriorityIgnored | components/summary.tsx:32-49 | A feature with a priority other than the three changes no entry. |
| Summary.UnmatchedEffortCountsOnly | components/summary.tsx:34-41 | A feature whose effort matches no tier adds one to its entry's count and nothing to its cost or days. |
| Summary.TotalsCountListedFeatures | components/summary.tsx:63-70 | The totals are the count, cost and days of exactly the features whose priority is Must, Should or Could. |
| Summary.TotalsCountAllWhenListed | components/summary.tsx:63-70 | When every priority is one of the three, the total count is the number of features. |
| Summary.SmallMustScenario | components/summary.tsx:25-49 | One Must feature of effort Small, with Small at 5 days of 1000, gives Must = {1, 5000, 5} and zero Should and Could entries. |
| FeatureEstimator.Lookup | components/feature-estimator.tsx:55 | Reading the record under a priority finds a record with that key exactly when one is present. |
| FeatureEstimator.Tallies | components/feature-estimator.tsx:51-60 | The reduce yields records with distinct keys. Each record is non-empty and counts and prices the features of its priority. Every priority without a record has no features. |
| FeatureEstimator.LookupMatchesReference | components/feature-estimator.tsx:52-59 | A priority has a record if and only if some feature carries it, and the record then counts those features and sums their costs; there are no zero records. |
| FeatureEstimator.CountsSumToLength | components/feature-estimator.tsx:52-59 | The counts of all records add up to the number of features. |
| FeatureEstimator.HandleAddAddsShouldMedium | components/feature-estimator.tsx:32-40 | The add button appends a feature with blank text, effort Medium and priority Should, which joins the Should features and adds the Medium tier's cost. |
| FeatureEstimator.HandleUpdate | components/feature-estimator.tsx:42-44 | A cell edit sends a patch that sets exactly one field, never the id, and merging it into any feature sets that column to the value. |
| FeatureEstimator.HandleUpdateEditsOneCell | components/feature-estimator.tsx:42-44 | Through the local store, a cell edit changes that one column of the rows with that id, keeps every other row, and leaves the tiers alone. |
| LocalStore.DefaultTiers | lib/store/index.ts:4-13 | The store starts with no features and four distinctly labelled tiers, Extra Small, Small, Medium and Large, of 3, 5, 10 and 20 days at 1000 per day, so they cost 3000, 5000, 10000 and 20000. |
| LocalStore.AddFeature | lib/store/index.ts:15-17 | One more feature; the old ones are an unchanged prefix; the last is the draft with the given id; tiers unchanged. |
| LocalStore.UpdateFeature | lib/store/index.ts:19-23 | Same length and order; rows with the id get the patch merged, others are unchanged; an absent id changes nothing; tiers unchanged. |
| LocalStore.DeleteFeature | lib/store/index.ts:25-27 | No row with the id remains, every other row remains, nothing new appears; an absent id changes nothing; tiers unchanged. |
| LocalStore.AddEffortConfig | lib/store/index.ts:29-31 | One more tier, the old ones an unchanged prefix, the last the draft with the given id; features unchanged. |
| LocalStore.UpdateEffortConfig | lib/store/index.ts:33-37 | Same length and order; tiers with the id get the patch merged, others are unchanged; an absent id changes nothing; features unchanged. |
| LocalStore.DeleteEffortConfig | lib/store/index.ts:39-41 | No tier with the id remains, every other tier remains; an absent id changes nothing; features unchanged. |
| LocalStore.UpdateFeatureIdempotent | lib/store/index.ts:19-23 | Applying the same feature update twice equals applying it once. |
| LocalStore.DeleteFeatureIdempotent | lib/store/index.ts:25-27 | Deleting the same feature id twice equals deleting it once. |
| LocalStore.DeleteFeatureKeepsOrder | lib/store/index.ts:25-27 | Deleting distributes over any split of the list, so the surviving features keep their order. |
| LocalStore.DeleteUndoesAddFeature | lib/store/index.ts:15-27 | Deleting a freshly added, unique id restores the store exactly. |
| LocalStore.UpdateEffortConfigIdempotent | lib/store/index.ts:33-37 | Applying the same tier update twice equals applying it once. |
| LocalStore.DeleteEffortConfigIdempotent | lib/store/index.ts:39-41 | Deleting the same tier id twice equals deleting it once. |
| LocalStore.DeleteEffortConfigKeepsOrder | lib/store/index.ts:39-41 | Tier deletion distributes over any split of the list, so the surviving tiers keep their order. |
| LocalStore.DeleteUndoesAddEffortConfig | lib/store/index.ts:29-41 | Deleting a freshly added, unique tier id restores the store exactly. |
| EstimationStore.SetLoading | lib/store/feature-store.ts:12 | Sets the loading flag and nothing else. |
| EstimationStore.SetError | lib/store/feature-store.ts:13 | Sets the error and nothing else. |
| EstimationStore.FetchFeaturesCall | lib/store/feature-store.ts:15-21 | No request without a current project; otherwise the bodiless GET of the feature list scoped to that project's id. |
| EstimationStore.AddFeatureCall | lib/store/feature-store.ts:30-36 | No request without a current project; otherwise a POST to the feature collection carrying the draft and the project's id. |
| EstimationStore.FetchFeatures | lib/store/feature-store.ts:15-28 | Without a current project the whole state is unchanged, loading flag included; otherwise it ends not loading, and a success replaces the features and clears the error while a failure keeps them and records the message or 'Failed to fetch features'. |
| EstimationStore.AddFeature | lib/store/feature-store.ts:30-43 | Without a current project nothing changes; otherwise it ends not loading, a success appends the server's feature with no error, and a failure keeps the list and records the message or 'Failed to add feature'. |
| EstimationStore.UpdateFeature | lib/store/feature-store.ts:45-59 | Ends not loading; a success merges the request's patch into the features with that id, as the local store would, with no error; a failure keeps the list and records the message or 'Failed to update feature'. |
| EstimationStore.DeleteFeature | lib/store/feature-store.ts:61-73 | Ends not loading; a success drops the features with that id, as the local store would; a failure keeps the list and records the message or 'Failed to delete feature'. |
| EstimationStore.FetchEffortConfigs | lib/store/feature-store.ts:75-85 | Ends not loading; a success replaces the tiers with no error; a failure keeps them and records the message or 'Failed to fetch effort configs'. |
| EstimationStore.AddEffortConfig | lib/store/feature-store.ts:87-97 | Ends not loading; a success appends the server's tier; a failure keeps the tiers and records the message or 'Failed to add effort config'. |
| EstimationStore.UpdateEffortConfig | lib/store/feature-store.ts:99-113 | Ends not loading; a success replaces every tier with that id by the server's copy and keeps the rest in place; a failure keeps the tiers and records the message or 'Failed to update effort config'. |
| EstimationStore.DeleteEffortConfig | lib/store/feature-store.ts:115-127 | Ends not loading; a success drops the tiers with that id, as the local store would; a failure keeps them and records the message or 'Failed to delete effort config'. |
| EstimationStore.UpdateFeatureIgnoresReply | lib/store/feature-store.ts:48-53 | Two different server copies of an updated feature lead to the same state. |
| EstimationStore.UpdateEffortConfigUsesReply | lib/store/feature-store.ts:102-107 | Two different server copies of an updated tier lead to different states whenever some tier has that id. |
| EstimationStore.FailureKeepsLists | lib/store/feature-store.ts:23-26 | A failure keeps both lists, and when the operation's fallback is non-empty and a thrown Error carries a non-empty message, the recorded message is non-empty. |
| EstimationStore.LoadingNeverSticks | lib/store/feature-store.ts:25-26 | From an idle store, any sequence of settled calls ends idle. |
| EstimationStore.FailuresKeepLists | lib/store/feature-store.ts:15-127 | A run of failed calls, calls without a project and error settings leaves both lists as they were. |
| EstimationStore.FailedFetchKeepsPreviousFeatures | lib/store/feature-store.ts:15-28 | After switching project, a failed fetch leaves the previous project's features in place and an error set. |
| LegacyProjectStore.FailureMessage | lib/store.ts:27-31 | A response that is not ok reports the operation's own text; a thrown `Error` reports its message; anything else reports 'An error occurred'. |
| LegacyProjectStore.SetCurrentProject | lib/store.ts:57-59 | Sets the selection and nothing else. |
| LegacyProjectStore.FetchProjects | lib/store.ts:23-35 | Ends not loading and never changes the selection; a success replaces the list and clears the error; a failure keeps it and records the message. |
| LegacyProjectStore.CreateProjectCall | lib/store.ts:40-44 | The hand-built POST equals the API client's create request for projects. |
| LegacyProjectStore.CreateProject | lib/store.ts:37-55 | Ends not loading and never changes the selection; a success puts the server's project in front of the list; a failure keeps the list and records the message. |
| LegacyProjectStore.CreateKeepsSelectionListed | lib/store.ts:47-49 | Creating a project keeps a listed selection listed. |
| LegacyProjectStore.DeleteUndoesCreate | lib/store.ts:47-80 | Deleting a project just created under a fresh id restores the list and the selection. |
| LegacyProjectStore.DeleteProject | lib/store.ts:61-88 | A success removes every project with the id and keeps every other project exactly as often as before, leaves the list as it was when no project has the id, and clears the selection if and only if it had that id; a failure keeps list and selection and records the message. |
| LegacyProjectStore.DeleteKeepsSelectionListed | lib/store.ts:70-82 | If the selection was a listed project, after a delete it is still listed or cleared. |
| LegacyProjectStore.DeleteProjectKeepsOrder | lib/store.ts:72 | A successful delete distributes over any split of the list, so the surviving projects keep their order. |
| LegacyProjectStore.DeleteProjectIdempotent | lib/store.ts:72 | Deleting the same project a second time changes nothing. |
| ProjectStore.SetCurrentProject | lib/store/project-store.ts:26-28 | Selects the project and keeps the list. |
| ProjectStore.FetchProjects | lib/store/project-store.ts:30-40 | A failed envelope changes nothing; a success replaces the list; a selection is never changed; with none, the first project is selected when the list is non-empty. |
| ProjectStore.CreateProjectCall | lib/store/project-store.ts:43-47 | The hand-built POST equals the API client's create request for projects. |
| ProjectStore.CreateProject | lib/store/project-store.ts:42-56 | A failed envelope changes nothing; a success puts the new project in front and selects it. |
| ProjectStore.UpdateProjectCall | lib/store/project-store.ts:59-63 | The hand-built PATCH equals the API client's update request for that project. |
| ProjectStore.UpdateProject | lib/store/project-store.ts:58-76 | A failed envelope changes nothing; a success keeps length and order and merges the returned fields into the projects with that id, and into the selection if and only if it has that id. |
| ProjectStore.FetchesKeepFirstSelection | lib/store/project-store.ts:36-38 | After the first successful non-empty fetch selects its first project, any later fetches keep that selection. |
| ProjectStore.CreateKeepsSelectionListed | lib/store/project-store.ts:50-54 | Creating keeps the selection among the listed projects. |
| ProjectStore.UpdateKeepsSelectionListed | lib/store/project-store.ts:66-73 | Updating keeps a listed selection listed, since it gets the same merge as its list entry. |
| ProjectStore.FetchCanOrphanSelection | lib/store/project-store.ts:33-38 | A selection can outlive its project: a fetch whose list lacks it keeps it selected. |
| EffortEditor.PatchOf | src/components/effort-config.tsx:66 | The call sent to the store is a patch that sets only the edited field, and merging it into any tier sets that field. |
| EffortEditor.HandleUpdate | src/components/effort-config.tsx:58-67 | The local list keeps its length and order; tiers with the id get the edited field, others are unchanged; the store receives the id and the single-field patch. |
| EffortEditor.LocalEditIsStoreUpdate | src/components/effort-config.tsx:60-64 | The local edit is exactly the local store's update applied with the patch that is sent. |
| EffortEditor.Settle | src/components/effort-config.tsx:44-46 | A store call that does not replace the tier list leaves that list as it was and does not touch the local copy; a local copy in sync with the store stays in sync after any call; a diverged copy stays diverged until a tier call succeeds, and then becomes the store's list. |
| EffortEditor.SuccessSupersedesEdit | src/components/effort-config.tsx:44-46 | Once the debounced update succeeds, the local copy equals the store's list and the edited tiers are the server's copy. |
| EffortEditor.FailureLeavesEditDiverged | src/components/effort-config.tsx:58-67 | When the debounced update fails, the store keeps its list, the local copy keeps the edit, and the two differ. |
| EffortEditor.BlankTierPricesNothing | src/components/effort-config.tsx:48-54 | Appending the blank tier (label '', 0 days, rate 0) changes no label's cost or days. |
| ApiUtils.SuccessResponse | lib/api-utils.ts:11-13 | The body is a success carrying the data and no error; the status is 200 unless given. |
| ApiUtils.ErrorResponse | lib/api-utils.ts:3-9 | The body is a failure without data. Its message is the `Error`'s own, or 'Internal Server Error' for anything else thrown. The status is 500 unless given. |
| ApiUtils.NotFoundMessageLost | lib/api-utils.ts:6 | The not-found answer's text is replaced by 'Internal Server Error'. |
| ApiUtils.ErrorResponseKeepingText | lib/api-utils.ts:3-9 | The corrected helper keeps a thrown string as the message and otherwise behaves as the original. |
| ApiUtils.KeepingTextAgreesOffStrings | lib/api-utils.ts:3-9 | The corrected helper agrees with the original on everything but thrown strings. |
| ApiClient.Unwrap | lib/api-client.ts:10-16 | Decodes to the data exactly when `success` is set; otherwise it fails with an `Error` whose message is the body's non-empty error, or 'API request failed'. |
| ApiClient.SuccessRoundTrip | lib/api-client.ts:12-16 | A success answer from the server decodes to its data. |
| ApiClient.ErrorRoundTrip | lib/api-client.ts:12-14 | An error answer decodes to a failure carrying the server's message, or the client's fallback when that is empty. |
| ApiClient.NotFoundRoundTrip | lib/api-client.ts:12-14 | With the corrected server helper, a non-empty not-found text reaches the client unchanged. |
| ApiClient.WithJsonHeader | lib/api-client.ts:4-7 | The caller's headers all survive; the JSON content type is present unless the caller sets its own. |
| ApiClient.Send | lib/api-client.ts:1-8 | The request goes to the URL with the caller's method and body (GET and none by default) and the merged headers. |
| ApiClient.ListFeatures | lib/api-client.ts:21 | The feature list URL carries `?projectId=` with the id when it is present and non-empty, and is the bare collection otherwise. |
| ApiClient.List | lib/api-client.ts:49 | A list request is a GET on the resource's collection. |
| ApiClient.Create | lib/api-client.ts:22-25 | A create request is a POST of the data on the collection with the JSON header. |
| ApiClient.Update | lib/api-client.ts:26-29 | An update request is a PATCH of the data on the item URL with the JSON header. |
| ApiClient.Remove | lib/api-client.ts:30-32 | A delete request is a DELETE without body on the item URL. |
| ApiClient.ItemUrlRoundTrip | lib/api-client.ts:26-32 | Reading the id back from a URL of a resource succeeds with an id if and only if the URL is that id's item URL. |
| ApiClient.ItemUrlsDistinct | lib/api-client.ts:19-62 | Two item URLs coincide if and only if resource and id both agree. |

## Left out

- Networking, `fetch`, JSON text and `NextResponse`: a request is the value that would be sent, and a reply is the parsed body or an outcome given as input.
- Concurrency: each asynchronous call settles atomically, so calls that overlap and interleave their `set`s are not modelled. The in-flight loading state is only the intermediate `Begin` step.
- The 500 ms debounce: each edit's call is modelled as sent, so the coalescing of rapid edits into the last one is not modelled.
- Clock-based ids (`Date.now()`): they are parameters, and their uniqueness is a precondition where a lemma needs it.
- Floating-point numbers: days, rates and costs are natural numbers. `parseFloat` results such as NaN, fractions and negative values are not modelled.
- Summary.AccumulateMatchesReference: holds only for priorities that do not name `Object.prototype` members. The source reduces into a plain `{}`, so `"toString"` finds an inherited function and gives a record of NaN, and `"__proto__"` writes onto the prototype and gives no own key. `Summary.CalculateSummary` reads only Must, Should and Could and is not affected.
- FeatureEstimator.Tallies: priorities that name members of `Object.prototype` are not modelled. The source's accumulator is a plain `{}`, so `acc["toString"]` finds an inherited function and yields a record of NaN, and `"__proto__"` writes onto the prototype and yields no record. The model treats every priority string as an ordinary key.
- FeatureEstimator.Lookup: does not model inherited `Object.prototype` members such as `toString` or `constructor`, which the source's `acc[priority]` finds. Same reason as above.
- FeatureEstimator.LookupMatchesReference: holds only for priorities that do not name `Object.prototype` members. For `"__proto__"` the source lists no record, and for `"toString"` it lists a NaN record.
- FeatureEstimator.CountsSumToLength: holds only when no priority names an `Object.prototype` member. A feature with priority `"__proto__"` goes uncounted in the source.
- JavaScript object key order: the sparse summary keeps records in order of first appearance. JavaScript enumerates integer-like keys first, and rendering order is not modelled.
- Spreads of fields that are present but `undefined`: a patch field is either absent or set, so overwriting with `undefined` is not modelled.
- `console.error` logging, React rendering, disabled buttons and error banners.
- The Prisma route handlers, apart from the not-found calls to `errorResponse` behind the finding below.
- The `src/lib` copies of the API client and helpers, which use a different envelope.
- Header names are compared case-sensitively. HTTP treats them case-insensitively.
- Truthiness: `success` is a boolean, and a project id is falsy only when absent or empty.
- ProjectStore.FetchProjects: a successful envelope without `data` is treated as a failure, leaving the state unchanged. The code (lib/store/project-store.ts:34-37) first sets the list to `undefined`; then, when nothing is selected, it throws on `.length`, and when a project is selected, it keeps that selection. Either way the list is `undefined` afterwards.
- ProjectStore.CreateProject: a successful envelope without `data` is treated as a failure, leaving the state unchanged. The code (lines 50-53) puts `undefined` at the front of the list and selects it, without throwing.
- ProjectStore.UpdateProject: a successful envelope without `data` is treated as a failure, leaving the state unchanged. The code (lines 67-73) spreads `undefined`, which adds no fields, so the matching projects and the selection are rebuilt with the same fields and nothing throws.
- ProjectStore: a failed `fetch` or a body that does not parse rejects the promise and leaves the state unchanged, which is the same as a failed envelope.
- LegacyProjectStore: an ok response is assumed to carry `data`.
- EstimationStore: each reply is given as an outcome that already holds the value, so a successful envelope without `data` (which `ApiClient.Unwrap` would turn into `undefined`) is not modelled. The route handlers always send `data` on success (`ApiClient.SuccessRoundTrip`).
- EffortEditor.Settle: the sync effect fires when the store's tier array gets a new identity. This is modelled as "a tier call succeeded", which is exactly when the store builds a new array.

## Findings

| source | as written | input that shows it | evidently intended | confidence | as-written member | corrected member |
|---|---|---|---|---|---|---|
| lib/api-utils.ts:6 | The feature item route (src/app/api/features/[id]/route.ts, line 14) and its siblings call `errorResponse('Feature not found', 404)` with a string, but `errorResponse` keeps a message only for `Error` values (lib/api-utils.ts:6). | `ErrorResponse(Text("Feature not found"), Some(404))` gives a body whose error is 'Internal Server Error'. | The client sees 'Feature not found'. | high, not executed | ApiUtils.NotFoundMessageLost | ApiUtils.ErrorResponseKeepingText |

=== FILE: api_client.dfy ===
/** The client side of the JSON API: `fetchApi` unwraps the envelope, and
    `api` builds a URL and a method per resource. The network, `fetch` and
    JSON text are not modelled: a request is the value that would be sent,
    and a reply is the parsed body. */
module ApiClient {
  import opened Outcomes
  import opened ApiUtils

  const RequestFailed: string := "API request failed"

  /** `fetchApi` after the body is parsed: the `data` member when `success`
      is set, otherwise an `Error` with the body's `error` text, or the
      generic text when that is missing or empty. */
  function Unwrap<T>(body: Envelope<T>): (r: Outcome<Option<T>>)
    ensures r.Ok? <==> body.success
    ensures r.Ok? ==> r.value == body.data
    ensures r.Err? ==> r.thrown.Error? && r.thrown.message != ""
    ensures r.Err? && body.error.Some? && body.error.value != "" ==> r.thrown.message == body.error.value
    ensures r.Err? && (body.error.None? || body.error.value == "") ==> r.thrown.message == RequestFailed
  {
    if !body.success then
      Err(Error(if body.error.Some? && body.error.value != "" then body.error.value else RequestFailed))
    else Ok(body.data)
  }

  /** What a successful route answer decodes to on the client: its data. */
  lemma SuccessRoundTrip<T>(data: T, status: Option<nat>)
    ensures Unwrap(SuccessResponse(data, status).body) == Ok(Some(data))
  {
  }

  /** What a failed route answer decodes to on the client: the thrown
      error's message when non-empty, otherwise the generic client text;
      anything thrown that is not an `Error` arrives as the generic server
      text. */
  lemma ErrorRoundTrip<T>(error: Thrown, status: Option<nat>)
    ensures var r := Unwrap(ErrorResponse<T>(error, status).body);
      && r.Err?
      && (error.Error? && error.message != "" ==> r.thrown == Error(error.message))
      && (error.Error? && error.message == "" ==> r.thrown == Error(RequestFailed))
      && (!error.Error? ==> r.thrown == Error(InternalServerError))
  {
  }

  /** With the corrected server helper a not-found text reaches the client
      intact. */
  lemma NotFoundRoundTrip<T>(text: string, status: Option<nat>)
    requires text != ""
    ensures Unwrap(ErrorResponseKeepingText<T>(Text(text), status).body) == Err(Error(text))
  {
  }

  datatype Verb = Get | Post | Patch | Delete

  /** The `RequestInit` fields the client sets. */
  datatype Init<B> = Init(verb: Verb, body: Option<B>, headers: map<string, string>)

  /** The request `fetch` receives. The body is the value `JSON.stringify`
      is applied to. */
  datatype Request<B> = Request(url: string, verb: Verb, body: Option<B>, headers: map<string, string>)

  const ContentType: string := "Content-Type"
  const Json: string := "application/json"

  /** `{ 'Content-Type': 'application/json', ...headers }`: the caller's
      headers win, the JSON content type is there unless overridden. */
  function WithJsonHeader(headers: map<string, string>): (r: map<string, string>)
    ensures r.Keys == headers.Keys + {ContentType}
    ensures forall k :: k in headers ==> r[k] == headers[k]
    ensures ContentType !in headers ==> r[ContentType] == Json
  {
    map[ContentType := Json] + headers
  }

  /** `fetchApi(url, options)` as the request it sends; without options
      `fetch` uses GET and no body. */
  function Send<B>(url: string, options: Option<Init<B>>): (r: Request<B>)
    ensures r.url == url
    ensures options.None? ==> r.verb == Get && r.body.None? && r.headers == map[ContentType := Json]
    ensures options.Some? ==> r.verb == options.value.verb && r.body == options.value.body
    ensures options.Some? ==> r.headers == WithJsonHeader(options.value.headers)
  {
    match options
    case None => Request(url, Get, None, WithJsonHeader(map[]))
    case Some(init) => Request(url, init.verb, init.body, WithJsonHeader(init.headers))
  }

  datatype Resource = Features | Projects | EffortConfigs

  /** The collection path of a resource. */
  function Path(res: Resource): string {
    match res
    case Features => "/api/features"
    case Projects => "/api/projects"
    case EffortConfigs => "/api/effort-configs"
  }

  /** `/api/<resource>/<id>` */
  function ItemUrl(res: Resource, id: string): string {
    Path(res) + "/" + id
  }

  /** `api.features.list(projectId)`: scoped by a query parameter only when
      the id is present and non-empty. */
  function ListFeatures<B>(projectId: Option<string>): (r: Request<B>)
    ensures r.verb == Get && r.body.None?
    ensures projectId.Some? && projectId.value != "" ==> r.url == Path(Features) + "?projectId=" + projectId.value
    ensures projectId.None? || projectId.value == "" ==> r.url == Path(Features)
  {
    var query := if projectId.Some? && projectId.value != "" then "?projectId=" + projectId.value else "";
    Send(Path(Features) + query, None)
  }

  /** `api.<resource>.list()` */
  function List<B>(res: Resource): (r: Request<B>)
    ensures r.url == Path(res) && r.verb == Get && r.body.None?
  {
    Send(Path(res), None)
  }

  /** `api.<resource>.create(data)`: POST on the collection. */
  function Create<B>(res: Resource, data: B): (r: Request<B>)
    ensures r.url == Path(res) && r.verb == Post && r.body == Some(data)
    ensures r.headers == map[ContentType := Json]
  {
    Send(Path(res), Some(Init(Post, Some(data), map[])))
  }

  /** `api.<resource>.update(id, data)`: PATCH on the item. */
  function Update<B>(res: Resource, id: string, data: B): (r: Request<B>)
    ensures r.url == ItemUrl(res, id) && r.verb == Patch && r.body == Some(data)
    ensures r.headers == map[ContentType := Json]
  {
    Send(ItemUrl(res, id), Some(Init(Patch, Some(data), map[])))
  }

  /** `api.<resource>.delete(id)`: DELETE on the item, no body. */
  function Remove<B>(res: Resource, id: string): (r: Request<B>)
    ensures r.url == ItemUrl(res, id) && r.verb == Delete && r.body.None?
    ensures r.headers == map[ContentType := Json]
  {
    Send(ItemUrl(res, id), Some(Init(Delete, None, map[])))
  }

  /** The suffix after the collection prefix of `res`. The client puts the
      id into the URL unencoded, so this is the route's `[id]` segment only
      for ids without '/', '?' or '#'. */
  function IdOf(res: Resource, url: string): Option<string> {
    var prefix := Path(res) + "/";
    if |prefix| <= |url| && url[..|prefix|] == prefix then Some(url[|prefix|..]) else None
  }

  /** The suffix after the collection prefix is exactly the id the client
      put in the URL, and only item URLs of its own resource have one. */
  lemma ItemUrlRoundTrip(res: Resource, url: string, id: string)
    ensures IdOf(res, url) == Some(id) <==> url == ItemUrl(res, id)
  {
    var prefix := Path(res) + "/";
    if url == ItemUrl(res, id) {
      assert url[..|prefix|] == prefix;
      assert url[|prefix|..] == id;
    }
    if IdOf(res, url) == Some(id) {
      assert url == url[..|prefix|] + url[|prefix|..];
    }
  }

  /** Item URLs of different resources never coincide, and one resource's
      item URLs differ whenever the ids do. */
  lemma ItemUrlsDistinct(r1: Resource, id1: string, r2: Resource, id2: string)
    ensures ItemUrl(r1, id1) == ItemUrl(r2, id2) <==> r1 == r2 && id1 == id2
  {
    if ItemUrl(r1, id1) == ItemUrl(r2, id2) {
      assert ItemUrl(r1, id1)[5] == ItemUrl(r2, id2)[5];
      assert r1 == r2;
      ItemUrlRoundTrip(r1, ItemUrl(r1, id1), id1);
      ItemUrlRoundTrip(r1, ItemUrl(r1, id1), id2);
    }
  }
}

=== FILE: api_utils.dfy ===
/** The server side of the JSON envelope: every route answers
    `{ success: true, data }` or `{ success: false, error }` with a status. */
module ApiUtils {
  import opened Outcomes

  /** The parsed JSON body. A missing member is `None`. */
  datatype Envelope<T> = Envelope(success: bool, data: Option<T>, error: Option<string>)

  /** A route's answer: status code and body. */
  datatype Response<T> = Response(status: nat, body: Envelope<T>)

  const InternalServerError: string := "Internal Server Error"

  /** `successResponse(data, status = 200)`; an omitted status is `None`. */
  function SuccessResponse<T>(data: T, status: Option<nat>): (r: Response<T>)
    ensures r.body.success && r.body.data == Some(data) && r.body.error.None?
    ensures status.None? ==> r.status == 200
    ensures status.Some? ==> r.status == status.value
  {
    Response(status.GetOr(200), Envelope(true, Some(data), None))
  }

  /** `errorResponse(error, status = 500)`: the message of an `Error`, and
      the generic text for anything else that was thrown. */
  function ErrorResponse<T>(error: Thrown, status: Option<nat>): (r: Response<T>)
    ensures !r.body.success && r.body.data.None? && r.body.error.Some?
    ensures error.Error? ==> r.body.error.value == error.message
    ensures !error.Error? ==> r.body.error.value == InternalServerError
    ensures status.None? ==> r.status == 500
    ensures status.Some? ==> r.status == status.value
  {
    Response(status.GetOr(500), Envelope(false, None, Some(MessageOf(error, InternalServerError))))
  }

  /** The not-found answers of the item routes hand a plain string to
      `ErrorResponse`, and the string never reaches the client: the body
      carries the generic text instead. */
  lemma NotFoundMessageLost<T>(text: string)
    requires text != InternalServerError
    ensures ErrorResponse<T>(Text(text), Some(404)).body.error != Some(text)
    ensures ErrorResponse<T>(Text(text), Some(404)).body.error == Some(InternalServerError)
  {
  }

  /** `ErrorResponse` as evidently intended: a thrown string is its own
      message, like an `Error`'s. */
  function ErrorResponseKeepingText<T>(error: Thrown, status: Option<nat>): (r: Response<T>)
    ensures !r.body.success && r.body.data.None? && r.body.error.Some?
    ensures error.Error? ==> r.body.error.value == error.message
    ensures error.Text? ==> r.body.error.value == error.text
    ensures error.Other? ==> r.body.error.value == InternalServerError
    ensures status.None? ==> r.status == 500
    ensures status.Some? ==> r.status == status.value
  {
    var message := match error
      case Error(m) => m
      case Text(t) => t
      case Other => InternalServerError;
    Response(status.GetOr(500), Envelope(false, None, Some(message)))
  }

  /** The two agree on everything except a thrown string. */
  lemma KeepingTextAgreesOffStrings<T>(error: Thrown, status: Option<nat>)
    requires !error.Text?
    ensures ErrorResponseKeepingText<T>(error, status) == ErrorResponse<T>(error, status)
  {
  }
}

=== FILE: costing.dfy ===
/** The cost rule shared by both summaries: a feature costs the days times
    the daily rate of the first effort tier carrying its size, and nothing
    when no tier does. Also the reference sums the summaries are proved
    against. */
module Costing {
  import opened Outcomes
  import opened Domain
  import Lists

  /** No tier carries the label `size`. */
  predicate Unmatched(configs: seq<EffortConfig>, size: string) {
    forall i :: 0 <= i < |configs| ==> configs[i].effortSize != size
  }

  /** `configs[i]` is the first tier carrying the label `size`. */
  predicate FirstMatch(configs: seq<EffortConfig>, size: string, i: int) {
    && 0 <= i < |configs|
    && configs[i].effortSize == size
    && forall j :: 0 <= j < i ==> configs[j].effortSize != size
  }

  /** `configs.find(c => c.effortSize === size)` */
  function FindConfig(configs: seq<EffortConfig>, size: string): (r: Option<EffortConfig>)
    ensures r.None? <==> Unmatched(configs, size)
    ensures r.Some? ==> r.value in configs && r.value.effortSize == size
    ensures forall i :: FirstMatch(configs, size, i) ==> r == Some(configs[i])
  {
    if |configs| == 0 then None
    else if configs[0].effortSize == size then Some(configs[0])
    else
      var rest := FindConfig(configs[1..], size);
      assert forall i :: FirstMatch(configs, size, i) ==> FirstMatch(configs[1..], size, i - 1);
      rest
  }

  /** `config.days * config.costPerDay` */
  function Price(c: EffortConfig): nat {
    c.days * c.costPerDay
  }

  /** `calculateCost(size)`: days times rate of the first tier labelled
      `size`, or 0 when no tier carries it. */
  function CostOf(configs: seq<EffortConfig>, size: string): (r: nat)
    ensures Unmatched(configs, size) ==> r == 0
    ensures forall i :: FirstMatch(configs, size, i) ==> r == Price(configs[i])
  {
    match FindConfig(configs, size)
    case Some(c) => Price(c)
    case None => 0
  }

  /** `config ? config.days : 0` for the same lookup. */
  function DaysOf(configs: seq<EffortConfig>, size: string): (r: nat)
    ensures Unmatched(configs, size) ==> r == 0
    ensures forall i :: FirstMatch(configs, size, i) ==> r == configs[i].days
  {
    match FindConfig(configs, size)
    case Some(c) => c.days
    case None => 0
  }

  /** The features carrying priority `p`, in list order. */
  function Selected(features: seq<Feature>, p: string): seq<Feature> {
    if |features| == 0 then []
    else
      var last := features[|features| - 1];
      Selected(features[..|features| - 1], p) + (if last.priority == p then [last] else [])
  }

  /** Sum of `CostOf` over a list of features. */
  function TotalCost(features: seq<Feature>, configs: seq<EffortConfig>): nat {
    if |features| == 0 then 0
    else TotalCost(features[..|features| - 1], configs) + CostOf(configs, features[|features| - 1].effort)
  }

  /** Sum of `DaysOf` over a list of features. */
  function TotalDays(features: seq<Feature>, configs: seq<EffortConfig>): nat {
    if |features| == 0 then 0
    else TotalDays(features[..|features| - 1], configs) + DaysOf(configs, features[|features| - 1].effort)
  }

  lemma SelectedSnoc(features: seq<Feature>, f: Feature, p: string)
    ensures Selected(features + [f], p) == Selected(features, p) + (if f.priority == p then [f] else [])
  {
    assert (features + [f])[..|features|] == features;
  }

  lemma SelectedSnocHit(features: seq<Feature>, f: Feature)
    ensures Selected(features + [f], f.priority) == Selected(features, f.priority) + [f]
  {
    assert (features + [f])[..|features|] == features;
  }

  lemma SelectedSnocMiss(features: seq<Feature>, f: Feature, p: string)
    requires f.priority != p
    ensures Selected(features + [f], p) == Selected(features, p)
  {
    assert (features + [f])[..|features|] == features;
    assert Selected(features, p) + [] == Selected(features, p);
  }

  lemma {:induction false} SelectedNone(features: seq<Feature>, p: string)
    requires forall i :: 0 <= i < |features| ==> features[i].priority != p
    ensures Selected(features, p) == []
  {
    if |features| > 0 {
      SelectedNone(features[..|features| - 1], p);
    }
  }

  lemma {:induction false} SelectedSome(features: seq<Feature>, p: string, i: nat)
    requires i < |features| && features[i].priority == p
    ensures |Selected(features, p)| > 0
  {
    if i < |features| - 1 {
      SelectedSome(features[..|features| - 1], p, i);
    }
  }

  lemma TotalsSnoc(features: seq<Feature>, f: Feature, configs: seq<EffortConfig>)
    ensures TotalCost(features + [f], configs) == TotalCost(features, configs) + CostOf(configs, f.effort)
    ensures TotalDays(features + [f], configs) == TotalDays(features, configs) + DaysOf(configs, f.effort)
  {
    assert (features + [f])[..|features|] == features;
  }
}

=== FILE: domain.dfy ===
/** The records the client keeps in its stores (features, effort tiers,
    projects), the partial updates merged into them with object spread, and
    the list edits every store applies by id. */
module Domain {
  import opened Outcomes
  import Lists

  /** A work item. Every field is a free string: `effort` names an effort
      tier by label and `priority` is meant to be Must, Should or Could, but
      neither is checked. */
  datatype Feature = Feature(
    id: string,
    title: string,
    description: string,
    effort: string,
    priority: string,
    category: string)

  /** `Omit<Feature, 'id'>`: what a caller supplies when adding a feature. */
  datatype FeatureDraft = FeatureDraft(
    title: string,
    description: string,
    effort: string,
    priority: string,
    category: string)
  {
    /** `{ ...draft, id }` */
    function WithId(id: string): Feature {
      Feature(id, title, description, effort, priority, category)
    }
  }

  /** `Partial<Feature>`: a present field overrides, an absent one keeps. */
  datatype FeaturePatch = FeaturePatch(
    id: Option<string>,
    title: Option<string>,
    description: Option<string>,
    effort: Option<string>,
    priority: Option<string>,
    category: Option<string>)

  /** `{ ...f, ...p }` */
  function MergeFeature(f: Feature, p: FeaturePatch): Feature {
    Feature(
      p.id.GetOr(f.id),
      p.title.GetOr(f.title),
      p.description.GetOr(f.description),
      p.effort.GetOr(f.effort),
      p.priority.GetOr(f.priority),
      p.category.GetOr(f.category))
  }

  /** An effort tier: a label with a day estimate and a daily rate. */
  datatype EffortConfig = EffortConfig(id: string, effortSize: string, days: nat, costPerDay: nat)

  /** `Omit<EffortConfig, 'id'>` */
  datatype ConfigDraft = ConfigDraft(effortSize: string, days: nat, costPerDay: nat)
  {
    function WithId(id: string): EffortConfig {
      EffortConfig(id, effortSize, days, costPerDay)
    }
  }

  /** `Partial<EffortConfig>` */
  datatype ConfigPatch = ConfigPatch(
    id: Option<string>,
    effortSize: Option<string>,
    days: Option<nat>,
    costPerDay: Option<nat>)

  /** `{ ...c, ...p }` */
  function MergeConfig(c: EffortConfig, p: ConfigPatch): EffortConfig {
    EffortConfig(
      p.id.GetOr(c.id),
      p.effortSize.GetOr(c.effortSize),
      p.days.GetOr(c.days),
      p.costPerDay.GetOr(c.costPerDay))
  }

  datatype Status = Active | Archived

  /** A project with its (possibly stale) snapshot of features. */
  datatype Project = Project(
    id: string,
    name: string,
    description: Option<string>,
    status: Status,
    features: seq<Feature>,
    createdAt: string,
    updatedAt: string)

  /** `Partial<Project>`, as returned by the server for an update. */
  datatype ProjectPatch = ProjectPatch(
    id: Option<string>,
    name: Option<string>,
    description: Option<string>,
    status: Option<Status>,
    features: Option<seq<Feature>>,
    createdAt: Option<string>,
    updatedAt: Option<string>)

  /** `{ ...p, ...d }` */
  function MergeProject(p: Project, d: ProjectPatch): Project {
    Project(
      d.id.GetOr(p.id),
      d.name.GetOr(p.name),
      if d.description.Some? then d.description else p.description,
      d.status.GetOr(p.status),
      d.features.GetOr(p.features),
      d.createdAt.GetOr(p.createdAt),
      d.updatedAt.GetOr(p.updatedAt))
  }

  /** `{ name, description? }`, the body of a project-creation request. */
  datatype NewProject = NewProject(name: string, description: Option<string>)

  /** The `{ message }` a delete resolves to; the stores never read it. */
  datatype Ack = Ack(message: string)

  // List edits. Each store spells these out inline with `map` and `filter`;
  // they are written once here.

  /** `fs.map(f => f.id === id ? { ...f, ...patch } : f)` */
  function PatchFeatures(fs: seq<Feature>, id: string, patch: FeaturePatch): seq<Feature> {
    seq(|fs|, i requires 0 <= i < |fs| => if fs[i].id == id then MergeFeature(fs[i], patch) else fs[i])
  }

  function FeatureIdIsNot(id: string): Feature -> bool {
    (f: Feature) => f.id != id
  }

  /** `fs.filter(f => f.id !== id)` */
  function RemoveFeatures(fs: seq<Feature>, id: string): seq<Feature> {
    Lists.Filter(fs, FeatureIdIsNot(id))
  }

  /** `cs.map(c => c.id === id ? { ...c, ...patch } : c)` */
  function PatchConfigs(cs: seq<EffortConfig>, id: string, patch: ConfigPatch): seq<EffortConfig> {
    seq(|cs|, i requires 0 <= i < |cs| => if cs[i].id == id then MergeConfig(cs[i], patch) else cs[i])
  }

  /** `cs.map(c => c.id === id ? replacement : c)` */
  function ReplaceConfigs(cs: seq<EffortConfig>, id: string, replacement: EffortConfig): seq<EffortConfig> {
    seq(|cs|, i requires 0 <= i < |cs| => if cs[i].id == id then replacement else cs[i])
  }

  function ConfigIdIsNot(id: string): EffortConfig -> bool {
    (c: EffortConfig) => c.id != id
  }

  /** `cs.filter(c => c.id !== id)` */
  function RemoveConfigs(cs: seq<EffortConfig>, id: string): seq<EffortConfig> {
    Lists.Filter(cs, ConfigIdIsNot(id))
  }

  /** `ps.map(p => p.id === id ? { ...p, ...d } : p)` */
  function PatchProjects(ps: seq<Project>, id: string, d: ProjectPatch): seq<Project> {
    seq(|ps|, i requires 0 <= i < |ps| => if ps[i].id == id then MergeProject(ps[i], d) else ps[i])
  }

  function ProjectIdIsNot(id: string): Project -> bool {
    (p: Project) => p.id != id
  }

  /** `ps.filter(p => p.id !== id)` */
  function RemoveProjects(ps: seq<Project>, id: string): seq<Project> {
    Lists.Filter(ps, ProjectIdIsNot(id))
  }
}

=== FILE: effort_editor.dfy ===
/** The effort-tier editor: a local copy of the store's tier list that a
    cell edit changes at once, while the same single-field change goes to
    the store (after a debounce); whenever the store's list is replaced the
    local copy is overwritten by it. */
module EffortEditor {
  import opened Outcomes
  import opened Domain
  import opened Costing
  import LocalStore
  import EstimationStore

  /** A cell edit: the label text or one of the two numbers. */
  datatype Edit = SizeEdit(size: string) | DaysEdit(days: nat) | RateEdit(costPerDay: nat)

  /** The tier with the edited field set. */
  function SetField(c: EffortConfig, edit: Edit): EffortConfig {
    match edit
    case SizeEdit(v) => c.(effortSize := v)
    case DaysEdit(v) => c.(days := v)
    case RateEdit(v) => c.(costPerDay := v)
  }

  /** `{ [field]: value }`: a patch setting the edited field and no other. */
  function PatchOf(edit: Edit): (p: ConfigPatch)
    ensures p.id.None?
    ensures forall c: EffortConfig {:trigger MergeConfig(c, p)} :: MergeConfig(c, p) == SetField(c, edit)
  {
    match edit
    case SizeEdit(v) => ConfigPatch(None, Some(v), None, None)
    case DaysEdit(v) => ConfigPatch(None, None, Some(v), None)
    case RateEdit(v) => ConfigPatch(None, None, None, Some(v))
  }

  /** The outcome of `handleUpdate`: the new local list, and the call handed
      to the debounced store update. */
  datatype Edited = Edited(local: seq<EffortConfig>, id: string, patch: ConfigPatch)

  /** `handleUpdate(id, field, value)`: the local list is edited in place and
      the store is asked for the same single-field change. */
  function HandleUpdate(local: seq<EffortConfig>, id: string, edit: Edit): (r: Edited)
    ensures |r.local| == |local|
    ensures forall i :: 0 <= i < |local| ==>
      r.local[i] == if local[i].id == id then SetField(local[i], edit) else local[i]
    ensures r.id == id && r.patch == PatchOf(edit)
  {
    var patch := PatchOf(edit);
    Edited(PatchConfigs(local, id, patch), id, patch)
  }

  /** The local edit is exactly what the local store would do with the
      patch that is sent. */
  lemma LocalEditIsStoreUpdate(local: seq<EffortConfig>, id: string, edit: Edit, features: seq<Feature>)
    ensures HandleUpdate(local, id, edit).local
      == LocalStore.UpdateEffortConfig(LocalStore.State(features, local), id, PatchOf(edit)).effortConfigs
  {
    var r := HandleUpdate(local, id, edit);
    var u := LocalStore.UpdateEffortConfig(LocalStore.State(features, local), id, PatchOf(edit));
    forall i | 0 <= i < |local| ensures r.local[i] == u.effortConfigs[i] {
      if local[i].id == id {
        assert MergeConfig(local[i], PatchOf(edit)) == SetField(local[i], edit);
      }
    }
  }

  /** The store call replaces the tier list: a settled tier call that
      succeeded. Nothing else gives the list a new identity, so nothing
      else fires the sync effect. */
  predicate Replaces(op: EstimationStore.Op) {
    match op
    case FetchEffortConfigsOp(o) => o.Ok?
    case AddEffortConfigOp(o) => o.Ok?
    case UpdateEffortConfigOp(_, o) => o.Ok?
    case DeleteEffortConfigOp(_, o) => o.Ok?
    case _ => false
  }

  /** A store call settling, followed by the sync effect:
      `setLocalConfigs(effortConfigs)` when the list was replaced. */
  function Settle(local: seq<EffortConfig>, s: EstimationStore.State, op: EstimationStore.Op): (r: (seq<EffortConfig>, EstimationStore.State))
    ensures r.1 == EstimationStore.Apply(s, op)
    ensures Replaces(op) ==> r.0 == r.1.effortConfigs
    ensures !Replaces(op) ==> r.0 == local
    ensures !Replaces(op) ==> r.1.effortConfigs == s.effortConfigs
    ensures local == s.effortConfigs ==> r.0 == r.1.effortConfigs
    ensures local != s.effortConfigs && !Replaces(op) ==> r.0 != r.1.effortConfigs
  {
    var s' := EstimationStore.Apply(s, op);
    (if Replaces(op) then s'.effortConfigs else local, s')
  }

  /** After the debounced update succeeds, the local list is the store's
      list, and the edited tiers are whatever the server returned: the
      optimistic edit is superseded. */
  lemma SuccessSupersedesEdit(local: seq<EffortConfig>, s: EstimationStore.State, id: string, edit: Edit, server: EffortConfig)
    ensures var e := HandleUpdate(local, id, edit);
      var (local', s') := Settle(e.local, s, EstimationStore.UpdateEffortConfigOp(e.id, Ok(server)));
      && local' == s'.effortConfigs
      && forall i :: 0 <= i < |s.effortConfigs| && s.effortConfigs[i].id == id ==> local'[i] == server
  {
  }

  /** When the debounced update fails, the store keeps its list, the effect
      does not fire, and the local copy keeps the edit: the two disagree
      whenever the edit changed a tier. */
  lemma FailureLeavesEditDiverged(local: seq<EffortConfig>, s: EstimationStore.State, id: string, edit: Edit, thrown: Thrown, i: nat)
    requires local == s.effortConfigs
    requires i < |local| && local[i].id == id && SetField(local[i], edit) != local[i]
    ensures var e := HandleUpdate(local, id, edit);
      var (local', s') := Settle(e.local, s, EstimationStore.UpdateEffortConfigOp(e.id, Err(thrown)));
      && s'.effortConfigs == s.effortConfigs
      && local' == e.local
      && local' != s'.effortConfigs
  {
    var e := HandleUpdate(local, id, edit);
    assert e.local[i] != local[i];
  }

  /** `handleAdd`'s request: a blank label, zero days, zero rate. */
  function AddRequest(): ConfigDraft {
    ConfigDraft("", 0, 0)
  }

  /** Adding the blank tier at the end changes the price of no effort label:
      a label already priced finds its earlier tier, and the blank label
      finds a tier that costs nothing. */
  lemma BlankTierPricesNothing(configs: seq<EffortConfig>, newId: string, size: string)
    ensures CostOf(configs + [AddRequest().WithId(newId)], size) == CostOf(configs, size)
    ensures DaysOf(configs + [AddRequest().WithId(newId)], size) == DaysOf(configs, size)
  {
    var t := AddRequest().WithId(newId);
    var cs := configs + [t];
    if Unmatched(configs, size) {
      if size == "" {
        assert FirstMatch(cs, size, |configs|);
      } else {
        assert Unmatched(cs, size);
      }
    } else {
      var i :| 0 <= i < |configs| && configs[i].effortSize == size;
      var k := FirstIndex(configs, size, i);
      assert FirstMatch(configs, size, k);
      assert FirstMatch(cs, size, k);
    }
  }

  /** The first position carrying `size`, at or before a known one. */
  ghost function FirstIndex(configs: seq<EffortConfig>, size: string, known: nat): (k: nat)
    requires known < |configs| && configs[known].effortSize == size
    ensures FirstMatch(configs, size, k)
    decreases known
  {
    if exists j :: 0 <= j < known && configs[j].effortSize == size then
      var j :| 0 <= j < known && configs[j].effortSize == size;
      FirstIndex(configs, size, j)
    else known
  }
}

=== FILE: estimation_store.dfy ===
/** The remote-backed estimation store: features and effort tiers kept in
    step with the API. Each of its eight asynchronous operations is a pure
    transition from the state before the call and the gateway's outcome to
    the state after the call has settled. The current project, read from the
    project store, is a parameter. */
module EstimationStore {
  import opened Outcomes
  import opened Domain
  import LocalStore
  import ApiClient

  datatype State = State(
    features: seq<Feature>,
    effortConfigs: seq<EffortConfig>,
    isLoading: bool,
    error: Option<string>)

  /** The store as created: empty lists, idle, no error. */
  function Init(): State {
    State([], [], false, None)
  }

  /** `setLoading(isLoading)` */
  function SetLoading(s: State, isLoading: bool): (r: State)
    ensures r.isLoading == isLoading
    ensures r.(isLoading := s.isLoading) == s
  {
    s.(isLoading := isLoading)
  }

  /** `setError(error)` */
  function SetError(s: State, error: Option<string>): (r: State)
    ensures r.error == error
    ensures r.(error := s.error) == s
  {
    s.(error := error)
  }

  /** `set({ isLoading: true, error: null })` at the start of every call. */
  function Begin(s: State): State {
    s.(isLoading := true, error := None)
  }

  /** The `catch` and `finally` arms: the thrown value's message, or the
      operation's own fallback, and loading off. Lists are untouched. */
  function Fail(s: State, thrown: Thrown, fallback: string): State {
    Begin(s).(error := Some(MessageOf(thrown, fallback)), isLoading := false)
  }

  /** The `finally` arm after a successful call. */
  function Done(s: State): State {
    Begin(s).(isLoading := false)
  }

  /** The two list fields as the local store's state. */
  function ListsOf(s: State): LocalStore.State {
    LocalStore.State(s.features, s.effortConfigs)
  }

  /** The request body of `addFeature`: `{ ...feature, projectId }`. */
  datatype FeatureCreate = FeatureCreate(draft: FeatureDraft, projectId: string)

  /** The list request `fetchFeatures` sends: none without a current
      project, otherwise one scoped to that project's id. */
  function FetchFeaturesCall(current: Option<Project>): (r: Option<ApiClient.Request<()>>)
    ensures r.None? <==> current.None?
    ensures r.Some? ==> r.value.verb == ApiClient.Get && r.value.body.None?
    ensures r.Some? ==> r.value == ApiClient.ListFeatures(Some(current.value.id))
  {
    match current
    case None => None
    case Some(p) => Some(ApiClient.ListFeatures(Some(p.id)))
  }

  /** The create request `addFeature` sends: none without a current project,
      otherwise a POST carrying the draft and that project's id. */
  function AddFeatureCall(current: Option<Project>, draft: FeatureDraft): (r: Option<ApiClient.Request<FeatureCreate>>)
    ensures r.None? <==> current.None?
    ensures r.Some? ==> r.value.url == ApiClient.Path(ApiClient.Features) && r.value.verb == ApiClient.Post
    ensures r.Some? ==> r.value.body == Some(FeatureCreate(draft, current.value.id))
  {
    match current
    case None => None
    case Some(p) => Some(ApiClient.Create(ApiClient.Features, FeatureCreate(draft, p.id)))
  }

  /** `fetchFeatures`: without a current project nothing happens at all;
      otherwise the reply replaces the feature list. */
  function FetchFeatures(s: State, current: Option<Project>, reply: Outcome<seq<Feature>>): (r: State)
    ensures current.None? ==> r == s
    ensures current.Some? ==> !r.isLoading && r.effortConfigs == s.effortConfigs
    ensures current.Some? && reply.Ok? ==> r.features == reply.value && r.error.None?
    ensures current.Some? && reply.Err? ==> r.features == s.features
    ensures current.Some? && reply.Err? ==> r.error == Some(MessageOf(reply.thrown, "Failed to fetch features"))
  {
    if current.None? then s
    else match reply
      case Ok(fs) => Done(s).(features := fs)
      case Err(t) => Fail(s, t, "Failed to fetch features")
  }

  /** `addFeature`: without a current project nothing happens; otherwise the
      feature the server returns is appended. */
  function AddFeature(s: State, current: Option<Project>, reply: Outcome<Feature>): (r: State)
    ensures current.None? ==> r == s
    ensures current.Some? ==> !r.isLoading && r.effortConfigs == s.effortConfigs
    ensures current.Some? && reply.Ok? ==> r.features == s.features + [reply.value] && r.error.None?
    ensures current.Some? && reply.Err? ==> r.features == s.features
    ensures current.Some? && reply.Err? ==> r.error == Some(MessageOf(reply.thrown, "Failed to add feature"))
  {
    if current.None? then s
    else match reply
      case Ok(f) => Done(s).(features := s.features + [f])
      case Err(t) => Fail(s, t, "Failed to add feature")
  }

  /** `updateFeature`: on success the request's own patch is merged into the
      features with that id; the server's copy is discarded. */
  function UpdateFeature(s: State, id: string, updates: FeaturePatch, reply: Outcome<Feature>): (r: State)
    ensures !r.isLoading && r.effortConfigs == s.effortConfigs
    ensures reply.Ok? ==> r.features == LocalStore.UpdateFeature(ListsOf(s), id, updates).features && r.error.None?
    ensures reply.Err? ==> r.features == s.features
    ensures reply.Err? ==> r.error == Some(MessageOf(reply.thrown, "Failed to update feature"))
  {
    match reply
    case Ok(_) => Done(s).(features := PatchFeatures(s.features, id, updates))
    case Err(t) => Fail(s, t, "Failed to update feature")
  }

  /** `deleteFeature`: on success the features with that id are dropped. */
  function DeleteFeature(s: State, id: string, reply: Outcome<()>): (r: State)
    ensures !r.isLoading && r.effortConfigs == s.effortConfigs
    ensures reply.Ok? ==> r.features == LocalStore.DeleteFeature(ListsOf(s), id).features && r.error.None?
    ensures reply.Err? ==> r.features == s.features
    ensures reply.Err? ==> r.error == Some(MessageOf(reply.thrown, "Failed to delete feature"))
  {
    match reply
    case Ok(_) => Done(s).(features := RemoveFeatures(s.features, id))
    case Err(t) => Fail(s, t, "Failed to delete feature")
  }

  /** `fetchEffortConfigs`: on success the reply replaces the tier list. */
  function FetchEffortConfigs(s: State, reply: Outcome<seq<EffortConfig>>): (r: State)
    ensures !r.isLoading && r.features == s.features
    ensures reply.Ok? ==> r.effortConfigs == reply.value && r.error.None?
    ensures reply.Err? ==> r.effortConfigs == s.effortConfigs
    ensures reply.Err? ==> r.error == Some(MessageOf(reply.thrown, "Failed to fetch effort configs"))
  {
    match reply
    case Ok(cs) => Done(s).(effortConfigs := cs)
    case Err(t) => Fail(s, t, "Failed to fetch effort configs")
  }

  /** `addEffortConfig`: on success the server's tier is appended. */
  function AddEffortConfig(s: State, reply: Outcome<EffortConfig>): (r: State)
    ensures !r.isLoading && r.features == s.features
    ensures reply.Ok? ==> r.effortConfigs == s.effortConfigs + [reply.value] && r.error.None?
    ensures reply.Err? ==> r.effortConfigs == s.effortConfigs
    ensures reply.Err? ==> r.error == Some(MessageOf(reply.thrown, "Failed to add effort config"))
  {
    match reply
    case Ok(c) => Done(s).(effortConfigs := s.effortConfigs + [c])
    case Err(t) => Fail(s, t, "Failed to add effort config")
  }

  /** `updateEffortConfig`: on success every tier with that id is replaced
      wholesale by the server's copy. */
  function UpdateEffortConfig(s: State, id: string, reply: Outcome<EffortConfig>): (r: State)
    ensures !r.isLoading && r.features == s.features
    ensures reply.Ok? ==> |r.effortConfigs| == |s.effortConfigs| && r.error.None?
    ensures reply.Ok? ==> forall i :: 0 <= i < |s.effortConfigs| ==>
      r.effortConfigs[i] == if s.effortConfigs[i].id == id then reply.value else s.effortConfigs[i]
    ensures reply.Err? ==> r.effortConfigs == s.effortConfigs
    ensures reply.Err? ==> r.error == Some(MessageOf(reply.thrown, "Failed to update effort config"))
  {
    match reply
    case Ok(c) => Done(s).(effortConfigs := ReplaceConfigs(s.effortConfigs, id, c))
    case Err(t) => Fail(s, t, "Failed to update effort config")
  }

  /** `deleteEffortConfig`: on success the tiers with that id are dropped. */
  function DeleteEffortConfig(s: State, id: string, reply: Outcome<()>): (r: State)
    ensures !r.isLoading && r.features == s.features
    ensures reply.Ok? ==> r.effortConfigs == LocalStore.DeleteEffortConfig(ListsOf(s), id).effortConfigs && r.error.None?
    ensures reply.Err? ==> r.effortConfigs == s.effortConfigs
    ensures reply.Err? ==> r.error == Some(MessageOf(reply.thrown, "Failed to delete effort config"))
  {
    match reply
    case Ok(_) => Done(s).(effortConfigs := RemoveConfigs(s.effortConfigs, id))
    case Err(t) => Fail(s, t, "Failed to delete effort config")
  }

  /** What the server sends back for a feature update makes no difference. */
  lemma UpdateFeatureIgnoresReply(s: State, id: string, updates: FeaturePatch, a: Feature, b: Feature)
    ensures UpdateFeature(s, id, updates, Ok(a)) == UpdateFeature(s, id, updates, Ok(b))
  {
  }

  /** What the server sends back for a tier update is what the store keeps,
      whenever some tier carries that id. */
  lemma UpdateEffortConfigUsesReply(s: State, id: string, a: EffortConfig, b: EffortConfig, i: nat)
    requires i < |s.effortConfigs| && s.effortConfigs[i].id == id && a != b
    ensures UpdateEffortConfig(s, id, Ok(a)) != UpdateEffortConfig(s, id, Ok(b))
  {
    assert UpdateEffortConfig(s, id, Ok(a)).effortConfigs[i] == a;
    assert UpdateEffortConfig(s, id, Ok(b)).effortConfigs[i] == b;
  }

  /** A failed call keeps both lists and records a non-empty message when
      the gateway's `Error` carries one. */
  lemma FailureKeepsLists(s: State, thrown: Thrown, fallback: string)
    requires fallback != "" && (thrown.Error? ==> thrown.message != "")
    ensures ListsOf(Fail(s, thrown, fallback)) == ListsOf(s)
    ensures Fail(s, thrown, fallback).error.Some? && Fail(s, thrown, fallback).error.value != ""
  {
  }

  /** A call to the store, with the gateway's answer it will get. */
  datatype Op =
    | FetchFeaturesOp(current: Option<Project>, features: Outcome<seq<Feature>>)
    | AddFeatureOp(current: Option<Project>, feature: Outcome<Feature>)
    | UpdateFeatureOp(id: string, updates: FeaturePatch, updated: Outcome<Feature>)
    | DeleteFeatureOp(id: string, done: Outcome<()>)
    | FetchEffortConfigsOp(configs: Outcome<seq<EffortConfig>>)
    | AddEffortConfigOp(config: Outcome<EffortConfig>)
    | UpdateEffortConfigOp(id: string, config: Outcome<EffortConfig>)
    | DeleteEffortConfigOp(id: string, done: Outcome<()>)
    | SetErrorOp(error: Option<string>)

  function Apply(s: State, op: Op): State {
    match op
    case FetchFeaturesOp(c, o) => FetchFeatures(s, c, o)
    case AddFeatureOp(c, o) => AddFeature(s, c, o)
    case UpdateFeatureOp(id, u, o) => UpdateFeature(s, id, u, o)
    case DeleteFeatureOp(id, o) => DeleteFeature(s, id, o)
    case FetchEffortConfigsOp(o) => FetchEffortConfigs(s, o)
    case AddEffortConfigOp(o) => AddEffortConfig(s, o)
    case UpdateEffortConfigOp(id, o) => UpdateEffortConfig(s, id, o)
    case DeleteEffortConfigOp(id, o) => DeleteEffortConfig(s, id, o)
    case SetErrorOp(e) => SetError(s, e)
  }

  /** The calls settled one after another, first to last. */
  function Run(s: State, ops: seq<Op>): State {
    if |ops| == 0 then s else Apply(Run(s, ops[..|ops| - 1]), ops[|ops| - 1])
  }

  /** Settled calls never leave the store loading: from an idle store, any
      sequence of settled calls (short of `setLoading`) ends idle. */
  lemma {:induction false} LoadingNeverSticks(s: State, ops: seq<Op>)
    requires !s.isLoading
    ensures !Run(s, ops).isLoading
  {
    if |ops| > 0 {
      LoadingNeverSticks(s, ops[..|ops| - 1]);
    }
  }

  /** The lists only ever change through a successful call: a run of
      failed calls, calls without a project and `setError` keeps them. */
  predicate Fails(op: Op) {
    match op
    case FetchFeaturesOp(c, o) => c.None? || o.Err?
    case AddFeatureOp(c, o) => c.None? || o.Err?
    case UpdateFeatureOp(_, _, o) => o.Err?
    case DeleteFeatureOp(_, o) => o.Err?
    case FetchEffortConfigsOp(o) => o.Err?
    case AddEffortConfigOp(o) => o.Err?
    case UpdateEffortConfigOp(_, o) => o.Err?
    case DeleteEffortConfigOp(_, o) => o.Err?
    case SetErrorOp(_) => true
  }

  lemma {:induction false} FailuresKeepLists(s: State, ops: seq<Op>)
    requires forall k :: 0 <= k < |ops| ==> Fails(ops[k])
    ensures ListsOf(Run(s, ops)) == ListsOf(s)
  {
    if |ops| > 0 {
      FailuresKeepLists(s, ops[..|ops| - 1]);
    }
  }

  /** Switching to another project does not clear the list: if the fetch
      for the new project fails, the previous project's features stay on
      show. */
  lemma FailedFetchKeepsPreviousFeatures(s: State, next: Project, thrown: Thrown)
    ensures FetchFeatures(s, Some(next), Err(thrown)).features == s.features
    ensures FetchFeatures(s, Some(next), Err(thrown)).error.Some?
  {
  }
}

=== FILE: feature_estimator.dfy ===
/** The feature table's own sparse summary: one `{ count, cost }` record per
    priority that actually occurs, plus the requests its add button and its
    cell edits send to the local store. */
module FeatureEstimator {
  import opened Outcomes
  import opened Domain
  import opened Costing
  import LocalStore

  /** `acc[priority] = { count, cost }` */
  datatype Tally = Tally(priority: string, count: nat, cost: nat)

  /** No record in `acc` is keyed by `p`. */
  predicate Absent(acc: seq<Tally>, p: string) {
    forall i :: 0 <= i < |acc| ==> acc[i].priority != p
  }

  /** Where the record keyed by `p` sits, searching from the latest key. */
  function IndexOf(acc: seq<Tally>, p: string): (r: Option<nat>)
    ensures r.Some? ==> r.value < |acc| && acc[r.value].priority == p
    ensures r.None? <==> Absent(acc, p)
  {
    if |acc| == 0 then None
    else if acc[|acc| - 1].priority == p then Some(|acc| - 1)
    else IndexOf(acc[..|acc| - 1], p)
  }

  /** The reducer's body: open a record for a new priority, then add one to
      its count and the feature's cost to its cost. */
  function Bump(acc: seq<Tally>, f: Feature, configs: seq<EffortConfig>): seq<Tally> {
    match IndexOf(acc, f.priority)
    case Some(i) => acc[i := Bumped(acc[i], f, configs)]
    case None => acc + [Opened(f, configs)]
  }

  /** Reference: the record the features of priority `p` deserve. */
  function TallyOf(features: seq<Feature>, configs: seq<EffortConfig>, p: string): Tally {
    var sel := Selected(features, p);
    Tally(p, |sel|, TotalCost(sel, configs))
  }

  lemma TallyOfSnoc(features: seq<Feature>, f: Feature, configs: seq<EffortConfig>, p: string)
    ensures TallyOf(features + [f], configs, p) ==
      if f.priority == p then Tally(p, TallyOf(features, configs, p).count + 1, TallyOf(features, configs, p).cost + CostOf(configs, f.effort))
      else TallyOf(features, configs, p)
  {
    var sel, sel' := Selected(features, p), Selected(features + [f], p);
    SelectedSnoc(features, f, p);
    if f.priority == p {
      assert sel' == sel + [f];
      TotalsSnoc(sel, f, configs);
    } else {
      assert sel' == sel;
    }
  }

  /** No two records share a key. */
  predicate DistinctKeys(acc: seq<Tally>) {
    forall i, j :: 0 <= i < j < |acc| ==> acc[i].priority != acc[j].priority
  }

  /** Every record is the non-empty reference record of its key. */
  predicate Exact(acc: seq<Tally>, features: seq<Feature>, configs: seq<EffortConfig>) {
    forall i :: 0 <= i < |acc| ==> acc[i] == TallyOf(features, configs, acc[i].priority) && acc[i].count > 0
  }

  /** A priority without a record has no features. */
  ghost predicate Covered(acc: seq<Tally>, features: seq<Feature>, configs: seq<EffortConfig>) {
    forall p :: Absent(acc, p) ==> TallyOf(features, configs, p).count == 0
  }

  /** The records describe `features` exactly. */
  ghost predicate Faithful(acc: seq<Tally>, features: seq<Feature>, configs: seq<EffortConfig>) {
    DistinctKeys(acc) && Exact(acc, features, configs) && Covered(acc, features, configs)
  }

  /** The record `Bump` writes over an existing key at `i`. */
  function Bumped(t: Tally, f: Feature, configs: seq<EffortConfig>): Tally {
    Tally(t.priority, t.count + 1, t.cost + CostOf(configs, f.effort))
  }

  lemma ExistingRecordsStayExact(acc: seq<Tally>, features: seq<Feature>, f: Feature, configs: seq<EffortConfig>, i: nat, j: nat)
    requires Faithful(acc, features, configs)
    requires i < |acc| && acc[i].priority == f.priority && j < |acc|
    ensures var r := acc[i := Bumped(acc[i], f, configs)];
      r[j] == TallyOf(features + [f], configs, r[j].priority) && r[j].count > 0
  {
    TallyOfSnoc(features, f, configs, acc[j].priority);
  }

  lemma ExistingKeepsCovered(acc: seq<Tally>, features: seq<Feature>, f: Feature, configs: seq<EffortConfig>, i: nat, p: string)
    requires Faithful(acc, features, configs)
    requires i < |acc| && acc[i].priority == f.priority
    requires Absent(acc[i := Bumped(acc[i], f, configs)], p)
    ensures TallyOf(features + [f], configs, p).count == 0
  {
    var r := acc[i := Bumped(acc[i], f, configs)];
    assert r[i].priority != p;
    assert f.priority != p;
    assert Absent(acc, p) by {
      forall k | 0 <= k < |acc| ensures acc[k].priority != p {
        assert r[k].priority == acc[k].priority;
      }
    }
    assert TallyOf(features, configs, p).count == 0;
    TallyOfSnoc(features, f, configs, p);
  }

  /** Bumping the record of a priority already present keeps the records
      faithful to the longer list. */
  lemma BumpExisting(acc: seq<Tally>, features: seq<Feature>, f: Feature, configs: seq<EffortConfig>, i: nat)
    requires Faithful(acc, features, configs)
    requires i < |acc| && acc[i].priority == f.priority
    ensures Faithful(acc[i := Bumped(acc[i], f, configs)], features + [f], configs)
  {
    var r := acc[i := Bumped(acc[i], f, configs)];
    assert DistinctKeys(r);
    forall j | 0 <= j < |r| ensures r[j] == TallyOf(features + [f], configs, r[j].priority) && r[j].count > 0 {
      ExistingRecordsStayExact(acc, features, f, configs, i, j);
    }
    forall p | Absent(r, p) ensures TallyOf(features + [f], configs, p).count == 0 {
      ExistingKeepsCovered(acc, features, f, configs, i, p);
    }
  }

  /** The record `Bump` opens for a new key. */
  function Opened(f: Feature, configs: seq<EffortConfig>): Tally {
    Tally(f.priority, 1, CostOf(configs, f.effort))
  }

  lemma NewRecordsStayExact(acc: seq<Tally>, features: seq<Feature>, f: Feature, configs: seq<EffortConfig>, j: nat)
    requires Faithful(acc, features, configs)
    requires Absent(acc, f.priority) && j <= |acc|
    ensures var r := acc + [Opened(f, configs)];
      r[j] == TallyOf(features + [f], configs, r[j].priority) && r[j].count > 0
  {
    var r := acc + [Opened(f, configs)];
    TallyOfSnoc(features, f, configs, r[j].priority);
    if j == |acc| {
      assert TallyOf(features, configs, f.priority).count == 0;
      assert Selected(features, f.priority) == [];
      assert TallyOf(features, configs, f.priority).cost == 0;
    } else {
      assert r[j] == acc[j];
    }
  }

  lemma NewKeepsCovered(acc: seq<Tally>, features: seq<Feature>, f: Feature, configs: seq<EffortConfig>, p: string)
    requires Faithful(acc, features, configs)
    requires Absent(acc, f.priority)
    requires Absent(acc + [Opened(f, configs)], p)
    ensures TallyOf(features + [f], configs, p).count == 0
  {
    var r := acc + [Opened(f, configs)];
    assert r[|acc|].priority != p;
    assert Absent(acc, p) by {
      forall k | 0 <= k < |acc| ensures acc[k].priority != p {
        assert r[k] == acc[k];
      }
    }
    assert TallyOf(features, configs, p).count == 0;
    TallyOfSnoc(features, f, configs, p);
  }

  /** Opening a record for a priority not yet present keeps the records
      faithful to the longer list. */
  lemma BumpNew(acc: seq<Tally>, features: seq<Feature>, f: Feature, configs: seq<EffortConfig>)
    requires Faithful(acc, features, configs)
    requires Absent(acc, f.priority)
    ensures Faithful(acc + [Opened(f, configs)], features + [f], configs)
  {
    var r := acc + [Opened(f, configs)];
    assert DistinctKeys(r) by {
      forall i, j | 0 <= i < j < |r| ensures r[i].priority != r[j].priority {
        assert r[i] == acc[i];
        if j < |acc| { assert r[j] == acc[j]; }
      }
    }
    forall j | 0 <= j < |r| ensures r[j] == TallyOf(features + [f], configs, r[j].priority) && r[j].count > 0 {
      NewRecordsStayExact(acc, features, f, configs, j);
    }
    forall p | Absent(r, p) ensures TallyOf(features + [f], configs, p).count == 0 {
      NewKeepsCovered(acc, features, f, configs, p);
    }
  }

  /** `calculateSummary()`: the fold from the first feature to the last,
      with records in order of first appearance. */
  function Tallies(features: seq<Feature>, configs: seq<EffortConfig>): (r: seq<Tally>)
    ensures Faithful(r, features, configs)
  {
    if |features| == 0 then []
    else
      var init, f := features[..|features| - 1], features[|features| - 1];
      assert features == init + [f];
      var acc := Tallies(init, configs);
      match IndexOf(acc, f.priority)
      case Some(i) =>
        BumpExisting(acc, init, f, configs, i);
        Bump(acc, f, configs)
      case None =>
        BumpNew(acc, init, f, configs);
        Bump(acc, f, configs)
  }

  lemma RecordMeansOccurs(acc: seq<Tally>, features: seq<Feature>, configs: seq<EffortConfig>, i: nat)
    requires Exact(acc, features, configs) && i < |acc|
    ensures exists j :: 0 <= j < |features| && features[j].priority == acc[i].priority
  {
    var p := acc[i].priority;
    assert |Selected(features, p)| > 0;
    if forall j :: 0 <= j < |features| ==> features[j].priority != p {
      SelectedNone(features, p);
      assert false;
    }
  }

  lemma OccursMeansRecord(acc: seq<Tally>, features: seq<Feature>, configs: seq<EffortConfig>, j: nat)
    requires Covered(acc, features, configs) && j < |features|
    ensures exists i :: 0 <= i < |acc| && acc[i].priority == features[j].priority
  {
    var p := features[j].priority;
    SelectedSome(features, p, j);
    assert TallyOf(features, configs, p).count > 0;
    assert !Absent(acc, p);
  }

  lemma FaithfulKeys(acc: seq<Tally>, features: seq<Feature>, configs: seq<EffortConfig>, p: string)
    requires Faithful(acc, features, configs)
    ensures (exists i :: 0 <= i < |acc| && acc[i].priority == p)
        <==> (exists j :: 0 <= j < |features| && features[j].priority == p)
  {
    if i :| 0 <= i < |acc| && acc[i].priority == p {
      RecordMeansOccurs(acc, features, configs, i);
    }
    if j :| 0 <= j < |features| && features[j].priority == p {
      OccursMeansRecord(acc, features, configs, j);
    }
  }

  /** `acc[p]`: the record keyed by `p`, if any. */
  function Lookup(acc: seq<Tally>, p: string): (r: Option<Tally>)
    ensures r.Some? ==> r.value in acc && r.value.priority == p
    ensures r.None? <==> Absent(acc, p)
  {
    match IndexOf(acc, p)
    case Some(i) => Some(acc[i])
    case None => None
  }

  /** `calculateSummary()[p]` is present exactly when some feature carries
      `p` (there are no zero records), and then counts and prices exactly
      those features. */
  lemma LookupMatchesReference(features: seq<Feature>, configs: seq<EffortConfig>, p: string)
    ensures Lookup(Tallies(features, configs), p) ==
      if exists j :: 0 <= j < |features| && features[j].priority == p then Some(TallyOf(features, configs, p)) else None
  {
    var r := Tallies(features, configs);
    FaithfulKeys(r, features, configs, p);
  }

  /** Sum of the counts, first record to last. */
  function SumCounts(acc: seq<Tally>): nat {
    if |acc| == 0 then 0 else SumCounts(acc[..|acc| - 1]) + acc[|acc| - 1].count
  }

  lemma {:induction false} SumCountsUpdate(acc: seq<Tally>, i: nat, t: Tally)
    requires i < |acc|
    ensures SumCounts(acc[i := t]) + acc[i].count == SumCounts(acc) + t.count
  {
    var n := |acc|;
    if i < n - 1 {
      assert acc[i := t][..n - 1] == acc[..n - 1][i := t];
      SumCountsUpdate(acc[..n - 1], i, t);
    } else {
      assert acc[i := t][..n - 1] == acc[..n - 1];
    }
  }

  lemma SumCountsSnoc(acc: seq<Tally>, t: Tally)
    ensures SumCounts(acc + [t]) == SumCounts(acc) + t.count
  {
    assert (acc + [t])[..|acc|] == acc;
  }

  lemma CountsStep(init: seq<Feature>, f: Feature, configs: seq<EffortConfig>)
    requires SumCounts(Tallies(init, configs)) == |init|
    ensures SumCounts(Bump(Tallies(init, configs), f, configs)) == |init| + 1
  {
    var acc := Tallies(init, configs);
    match IndexOf(acc, f.priority)
    case Some(i) =>
      SumCountsUpdate(acc, i, Bumped(acc[i], f, configs));
    case None =>
      SumCountsSnoc(acc, Opened(f, configs));
  }

  /** Every feature is counted exactly once. */
  lemma {:induction false} CountsSumToLength(features: seq<Feature>, configs: seq<EffortConfig>)
    ensures SumCounts(Tallies(features, configs)) == |features|
  {
    if |features| > 0 {
      var init, f := features[..|features| - 1], features[|features| - 1];
      CountsSumToLength(init, configs);
      CountsStep(init, f, configs);
      assert Tallies(features, configs) == Bump(Tallies(init, configs), f, configs);
    }
  }

  /** `handleAdd`'s request: blank text, Medium effort, Should priority. */
  function AddRequest(): FeatureDraft {
    FeatureDraft("", "", "Medium", "Should", "")
  }

  /** Pressing add in the table appends a blank Should feature, which the
      summary counts under Should at the Medium tier's price. */
  lemma HandleAddAddsShouldMedium(s: LocalStore.State, newId: string)
    ensures var r := LocalStore.AddFeature(s, AddRequest(), newId);
      && r.features == s.features + [Feature(newId, "", "", "Medium", "Should", "")]
      && Selected(r.features, "Should") == Selected(s.features, "Should") + [Feature(newId, "", "", "Medium", "Should", "")]
      && TotalCost(Selected(r.features, "Should"), r.effortConfigs)
         == TotalCost(Selected(s.features, "Should"), s.effortConfigs) + CostOf(s.effortConfigs, "Medium")
  {
    var f := Feature(newId, "", "", "Medium", "Should", "");
    var r := LocalStore.AddFeature(s, AddRequest(), newId);
    assert r.features == s.features + [f];
    SelectedSnoc(s.features, f, "Should");
    TotalsSnoc(Selected(s.features, "Should"), f, s.effortConfigs);
  }

  /** The editable text columns of a feature row. */
  datatype Field = Title | Description | Category | Effort | Priority

  /** The row with one column set to `v`. */
  function SetField(f: Feature, field: Field, v: string): Feature {
    match field
    case Title => f.(title := v)
    case Description => f.(description := v)
    case Category => f.(category := v)
    case Effort => f.(effort := v)
    case Priority => f.(priority := v)
  }

  /** Number of fields a patch sets. */
  function PatchSize(p: FeaturePatch): nat {
    (if p.id.Some? then 1 else 0) + (if p.title.Some? then 1 else 0) + (if p.description.Some? then 1 else 0)
    + (if p.effort.Some? then 1 else 0) + (if p.priority.Some? then 1 else 0) + (if p.category.Some? then 1 else 0)
  }

  /** `handleUpdate`'s request `{ [field]: value }`: a patch setting that
      one field and nothing else, which merges into any feature as setting
      the column. */
  function HandleUpdate(field: Field, v: string): (patch: FeaturePatch)
    ensures PatchSize(patch) == 1 && patch.id.None?
    ensures forall f: Feature {:trigger MergeFeature(f, patch)} :: MergeFeature(f, patch) == SetField(f, field, v)
  {
    match field
    case Title => FeaturePatch(None, Some(v), None, None, None, None)
    case Description => FeaturePatch(None, None, Some(v), None, None, None)
    case Category => FeaturePatch(None, None, None, None, None, Some(v))
    case Effort => FeaturePatch(None, None, None, Some(v), None, None)
    case Priority => FeaturePatch(None, None, None, None, Some(v), None)
  }

  /** A cell edit changes that one column of the rows with that id, and
      nothing else in the store. */
  lemma HandleUpdateEditsOneCell(s: LocalStore.State, id: string, field: Field, v: string)
    ensures var r := LocalStore.UpdateFeature(s, id, HandleUpdate(field, v));
      && |r.features| == |s.features|
      && r.effortConfigs == s.effortConfigs
      && forall i :: 0 <= i < |s.features| ==>
           r.features[i] == if s.features[i].id == id then SetField(s.features[i], field, v) else s.features[i]
  {
    var patch := HandleUpdate(field, v);
    var r := LocalStore.UpdateFeature(s, id, patch);
    forall i | 0 <= i < |s.features| && s.features[i].id == id
      ensures r.features[i] == SetField(s.features[i], field, v)
    {
      assert MergeFeature(s.features[i], patch) == SetField(s.features[i], field, v);
    }
  }
}

=== FILE: legacy_project_store.dfy ===
/** The older project store: it calls `fetch` directly, tracks loading and
    an error, prepends a created project without selecting it, and clears
    the selection when the selected project is deleted. */
module LegacyProjectStore {
  import opened Outcomes
  import opened Domain
  import Lists
  import ApiClient

  datatype State = State(
    projects: seq<Project>,
    currentProject: Option<Project>,
    isLoading: bool,
    error: Option<string>)

  function Init(): State {
    State([], None, false, None)
  }

  /** How a direct `fetch` call ends: an ok response with its parsed body's
      `data`, a response that is not ok, or a thrown value (network or
      parse failure). */
  datatype HttpReply<T> = Okay(data: T) | NotOk | Threw(thrown: Thrown)

  const OtherError: string := "An error occurred"

  /** The `catch` arm's message: a not-ok response throws an `Error` with
      the operation's text, anything else thrown is reported as such. */
  function FailureMessage<T>(reply: HttpReply<T>, notOk: string): (m: string)
    requires !reply.Okay?
    ensures reply.NotOk? ==> m == notOk
    ensures reply.Threw? && reply.thrown.Error? ==> m == reply.thrown.message
    ensures reply.Threw? && !reply.thrown.Error? ==> m == OtherError
  {
    match reply
    case NotOk => MessageOf(Error(notOk), OtherError)
    case Threw(t) => MessageOf(t, OtherError)
  }

  /** `setCurrentProject(project)` */
  function SetCurrentProject(s: State, project: Option<Project>): (r: State)
    ensures r.currentProject == project
    ensures r.(currentProject := s.currentProject) == s
  {
    s.(currentProject := project)
  }

  /** `fetchProjects`: on success the list is replaced; the selection is
      never touched. */
  function FetchProjects(s: State, reply: HttpReply<seq<Project>>): (r: State)
    ensures !r.isLoading && r.currentProject == s.currentProject
    ensures reply.Okay? ==> r.projects == reply.data && r.error.None?
    ensures !reply.Okay? ==> r.projects == s.projects
    ensures !reply.Okay? ==> r.error == Some(FailureMessage(reply, "Failed to fetch projects"))
  {
    var begun := s.(isLoading := true, error := None);
    match reply
    case Okay(ps) => begun.(projects := ps, isLoading := false)
    case _ => begun.(error := Some(FailureMessage(reply, "Failed to fetch projects")), isLoading := false)
  }

  /** The request `createProject` builds by hand: the same POST the API
      client would send. */
  function CreateProjectCall(project: NewProject): (r: ApiClient.Request<NewProject>)
    ensures r == ApiClient.Create(ApiClient.Projects, project)
  {
    ApiClient.Request(ApiClient.Path(ApiClient.Projects), ApiClient.Post, Some(project), map[ApiClient.ContentType := ApiClient.Json])
  }

  /** `createProject`: on success the server's project goes to the front;
      the selection is not changed. */
  function CreateProject(s: State, reply: HttpReply<Project>): (r: State)
    ensures !r.isLoading && r.currentProject == s.currentProject
    ensures reply.Okay? ==> r.projects == [reply.data] + s.projects && r.error.None?
    ensures !reply.Okay? ==> r.projects == s.projects
    ensures !reply.Okay? ==> r.error == Some(FailureMessage(reply, "Failed to create project"))
  {
    var begun := s.(isLoading := true, error := None);
    match reply
    case Okay(p) => begun.(projects := [p] + s.projects, isLoading := false)
    case _ => begun.(error := Some(FailureMessage(reply, "Failed to create project")), isLoading := false)
  }

  /** `currentProject?.id === id` */
  predicate IsCurrent(current: Option<Project>, id: string) {
    current.Some? && current.value.id == id
  }

  /** `deleteProject(id)`: on success every project with that id is
      dropped, and the selection is cleared exactly when it had that id. */
  function DeleteProject(s: State, id: string, reply: HttpReply<Ack>): (r: State)
    ensures !r.isLoading
    ensures reply.Okay? ==> r.error.None?
    ensures reply.Okay? ==> forall i :: 0 <= i < |r.projects| ==> r.projects[i].id != id && r.projects[i] in s.projects
    ensures reply.Okay? ==> forall i :: 0 <= i < |s.projects| && s.projects[i].id != id ==> s.projects[i] in r.projects
    ensures reply.Okay? ==> forall p :: multiset(r.projects)[p] == if p.id != id then multiset(s.projects)[p] else 0
    ensures reply.Okay? && (forall i :: 0 <= i < |s.projects| ==> s.projects[i].id != id) ==> r.projects == s.projects
    ensures reply.Okay? ==> (r.currentProject.None? <==> s.currentProject.None? || IsCurrent(s.currentProject, id))
    ensures reply.Okay? && !IsCurrent(s.currentProject, id) ==> r.currentProject == s.currentProject
    ensures !reply.Okay? ==> r.projects == s.projects && r.currentProject == s.currentProject
    ensures !reply.Okay? ==> r.error == Some(FailureMessage(reply, "Failed to delete project"))
  {
    var begun := s.(isLoading := true, error := None);
    match reply
    case Okay(_) =>
      var current := if IsCurrent(s.currentProject, id) then None else s.currentProject;
      var done := begun.(projects := RemoveProjects(s.projects, id), currentProject := current, isLoading := false);
      Lists.FilterCounts(s.projects, ProjectIdIsNot(id));
      if forall i :: 0 <= i < |s.projects| ==> s.projects[i].id != id then
        Lists.FilterKeepsAll(s.projects, ProjectIdIsNot(id));
        done
      else
        done
    case _ => begun.(error := Some(FailureMessage(reply, "Failed to delete project")), isLoading := false)
  }

  /** The selection is one of the listed projects, or there is none. */
  predicate SelectionListed(s: State) {
    s.currentProject.None? || s.currentProject.value in s.projects
  }

  /** Creating keeps a listed selection listed: the list only grows at the
      front and the selection is not touched. */
  lemma CreateKeepsSelectionListed(s: State, reply: HttpReply<Project>)
    requires SelectionListed(s)
    ensures SelectionListed(CreateProject(s, reply))
  {
    if reply.Okay? && s.currentProject.Some? {
      var r := CreateProject(s, reply);
      var i :| 0 <= i < |s.projects| && s.projects[i] == s.currentProject.value;
      assert r.projects[i + 1] == s.projects[i];
    }
  }

  /** Deleting a project just created, under an id no listed or selected
      project had, gives back the list and selection, settled with no error. */
  lemma DeleteUndoesCreate(s: State, p: Project, a: Ack)
    requires forall i :: 0 <= i < |s.projects| ==> s.projects[i].id != p.id
    requires !IsCurrent(s.currentProject, p.id)
    ensures DeleteProject(CreateProject(s, Okay(p)), p.id, Okay(a)) == s.(isLoading := false, error := None)
  {
    Lists.FilterAppend([p], s.projects, ProjectIdIsNot(p.id));
    Lists.FilterSingle(p, ProjectIdIsNot(p.id));
    Lists.FilterKeepsAll(s.projects, ProjectIdIsNot(p.id));
    assert [] + s.projects == s.projects;
  }

  /** Deleting keeps a listed selection listed: the selection is either the
      deleted project, and cleared, or survives the filter. */
  lemma DeleteKeepsSelectionListed(s: State, id: string, reply: HttpReply<Ack>)
    requires SelectionListed(s)
    ensures SelectionListed(DeleteProject(s, id, reply))
  {
    var r := DeleteProject(s, id, reply);
    if reply.Okay? && r.currentProject.Some? {
      var c := s.currentProject.value;
      var i :| 0 <= i < |s.projects| && s.projects[i] == c;
      assert c in r.projects;
    }
  }

  /** A successful delete distributes over any split of the list, so the
      surviving projects keep their relative order. */
  lemma DeleteProjectKeepsOrder(s: State, id: string, a: Ack, front: seq<Project>, back: seq<Project>)
    requires s.projects == front + back
    ensures DeleteProject(s, id, Okay(a)).projects ==
      DeleteProject(s.(projects := front), id, Okay(a)).projects + DeleteProject(s.(projects := back), id, Okay(a)).projects
  {
    Lists.FilterAppend(front, back, ProjectIdIsNot(id));
  }

  /** Deleting the same project a second time changes nothing. */
  lemma DeleteProjectIdempotent(s: State, id: string, a: Ack, b: Ack)
    ensures DeleteProject(DeleteProject(s, id, Okay(a)), id, Okay(b)) == DeleteProject(s, id, Okay(a))
  {
    Lists.FilterIdempotent(s.projects, ProjectIdIsNot(id));
  }
}

=== FILE: lists.dfy ===
/** `Array.prototype.filter` on sequences, and the facts about it that the
    stores' delete operations rely on. */
module Lists {

  /** `xs.filter(keep)`: the elements satisfying `keep`, in their original order. */
  function Filter<T>(xs: seq<T>, keep: T -> bool): (r: seq<T>)
    ensures |r| <= |xs|
    ensures forall i :: 0 <= i < |r| ==> r[i] in xs && keep(r[i])
    ensures forall i :: 0 <= i < |xs| && keep(xs[i]) ==> xs[i] in r
  {
    if |xs| == 0 then []
    else (if keep(xs[0]) then [xs[0]] else []) + Filter(xs[1..], keep)
  }

  /** Filtering distributes over concatenation: the survivors of a list keep
      their relative order. */
  lemma {:induction false} FilterAppend<T>(xs: seq<T>, ys: seq<T>, keep: T -> bool)
    ensures Filter(xs + ys, keep) == Filter(xs, keep) + Filter(ys, keep)
  {
    if |xs| == 0 {
      assert xs + ys == ys;
    } else {
      assert (xs + ys)[0] == xs[0];
      assert (xs + ys)[1..] == xs[1..] + ys;
      FilterAppend(xs[1..], ys, keep);
    }
  }

  /** A one-element list is kept or dropped whole. */
  lemma FilterSingle<T>(x: T, keep: T -> bool)
    ensures Filter([x], keep) == if keep(x) then [x] else []
  {
    assert [x][1..] == [];
  }

  /** A list whose every element is kept filters to itself. */
  lemma {:induction false} FilterKeepsAll<T>(xs: seq<T>, keep: T -> bool)
    requires forall i :: 0 <= i < |xs| ==> keep(xs[i])
    ensures Filter(xs, keep) == xs
  {
    if |xs| > 0 {
      FilterKeepsAll(xs[1..], keep);
      assert [xs[0]] + xs[1..] == xs;
    }
  }

  /** Filtering twice with the same test is filtering once. */
  lemma {:induction false} FilterIdempotent<T>(xs: seq<T>, keep: T -> bool)
    ensures Filter(Filter(xs, keep), keep) == Filter(xs, keep)
  {
    if |xs| > 0 {
      var head := if keep(xs[0]) then [xs[0]] else [];
      FilterIdempotent(xs[1..], keep);
      FilterAppend(head, Filter(xs[1..], keep), keep);
      if keep(xs[0]) {
        FilterSingle(xs[0], keep);
      } else {
        assert head == [];
        assert head + Filter(xs[1..], keep) == Filter(xs[1..], keep);
      }
    }
  }

  /** Every kept value keeps its multiplicity; every dropped value disappears. */
  lemma {:induction false} FilterCount<T>(xs: seq<T>, keep: T -> bool, x: T)
    ensures multiset(Filter(xs, keep))[x] == if keep(x) then multiset(xs)[x] else 0
  {
    if |xs| > 0 {
      FilterCount(xs[1..], keep, x);
      assert xs == [xs[0]] + xs[1..];
      assert multiset(xs) == multiset([xs[0]]) + multiset(xs[1..]);
    }
  }

  /** `FilterCount` for every value at once. */
  lemma FilterCounts<T>(xs: seq<T>, keep: T -> bool)
    ensures forall x :: multiset(Filter(xs, keep))[x] == if keep(x) then multiset(xs)[x] else 0
  {
    forall x
      ensures multiset(Filter(xs, keep))[x] == if keep(x) then multiset(xs)[x] else 0
    {
      FilterCount(xs, keep, x);
    }
  }
}

=== FILE: local_store.dfy ===
/** The synchronous in-memory store: a feature list and an effort-tier list,
    each with append, merge-by-id and delete-by-id. New ids come from the
    clock in the application; here they are parameters. */
module LocalStore {
  import opened Domain
  import opened Costing
  import Lists

  datatype State = State(features: seq<Feature>, effortConfigs: seq<EffortConfig>)

  /** `defaultEffortConfigs` */
  function DefaultEffortConfigs(): seq<EffortConfig> {
    [ EffortConfig("1", "Extra Small", 3, 1000),
      EffortConfig("2", "Small", 5, 1000),
      EffortConfig("3", "Medium", 10, 1000),
      EffortConfig("4", "Large", 20, 1000) ]
  }

  /** The store as created: no features, the default tiers. */
  function Init(): State {
    State([], DefaultEffortConfigs())
  }

  /** The initial tiers are four distinctly labelled sizes priced at 3, 5,
      10 and 20 days of 1000 each. */
  lemma DefaultTiers()
    ensures Init().features == []
    ensures |Init().effortConfigs| == 4
    ensures forall i, j :: 0 <= i < j < |Init().effortConfigs| ==>
      Init().effortConfigs[i].effortSize != Init().effortConfigs[j].effortSize
    ensures CostOf(Init().effortConfigs, "Extra Small") == 3000
    ensures CostOf(Init().effortConfigs, "Small") == 5000
    ensures CostOf(Init().effortConfigs, "Medium") == 10000
    ensures CostOf(Init().effortConfigs, "Large") == 20000
    ensures DaysOf(Init().effortConfigs, "Extra Small") == 3
    ensures DaysOf(Init().effortConfigs, "Small") == 5
    ensures DaysOf(Init().effortConfigs, "Medium") == 10
    ensures DaysOf(Init().effortConfigs, "Large") == 20
    ensures forall i :: 0 <= i < |Init().effortConfigs| ==> Init().effortConfigs[i].costPerDay == 1000
  {
    var cs := DefaultEffortConfigs();
    assert FirstMatch(cs, "Extra Small", 0);
    assert FirstMatch(cs, "Small", 1);
    assert FirstMatch(cs, "Medium", 2);
    assert FirstMatch(cs, "Large", 3);
  }

  /** `addFeature`: append the draft under the supplied id. */
  function AddFeature(s: State, draft: FeatureDraft, newId: string): (r: State)
    ensures |r.features| == |s.features| + 1
    ensures r.features[..|s.features|] == s.features
    ensures r.features[|s.features|] == draft.WithId(newId)
    ensures r.effortConfigs == s.effortConfigs
  {
    s.(features := s.features + [draft.WithId(newId)])
  }

  /** `updateFeature`: merge the patch into every feature with that id. */
  function UpdateFeature(s: State, id: string, patch: FeaturePatch): (r: State)
    ensures |r.features| == |s.features|
    ensures forall i :: 0 <= i < |s.features| ==>
      r.features[i] == if s.features[i].id == id then MergeFeature(s.features[i], patch) else s.features[i]
    ensures (forall i :: 0 <= i < |s.features| ==> s.features[i].id != id) ==> r == s
    ensures r.effortConfigs == s.effortConfigs
  {
    s.(features := PatchFeatures(s.features, id, patch))
  }

  /** `deleteFeature`: drop every feature with that id. */
  function DeleteFeature(s: State, id: string): (r: State)
    ensures forall i :: 0 <= i < |r.features| ==> r.features[i].id != id && r.features[i] in s.features
    ensures forall i :: 0 <= i < |s.features| && s.features[i].id != id ==> s.features[i] in r.features
    ensures (forall i :: 0 <= i < |s.features| ==> s.features[i].id != id) ==> r == s
    ensures r.effortConfigs == s.effortConfigs
  {
    if forall i :: 0 <= i < |s.features| ==> s.features[i].id != id then
      Lists.FilterKeepsAll(s.features, FeatureIdIsNot(id));
      s.(features := RemoveFeatures(s.features, id))
    else
      s.(features := RemoveFeatures(s.features, id))
  }

  /** `addEffortConfig`: append the draft under the supplied id. */
  function AddEffortConfig(s: State, draft: ConfigDraft, newId: string): (r: State)
    ensures |r.effortConfigs| == |s.effortConfigs| + 1
    ensures r.effortConfigs[..|s.effortConfigs|] == s.effortConfigs
    ensures r.effortConfigs[|s.effortConfigs|] == draft.WithId(newId)
    ensures r.features == s.features
  {
    s.(effortConfigs := s.effortConfigs + [draft.WithId(newId)])
  }

  /** `updateEffortConfig`: merge the patch into every tier with that id. */
  function UpdateEffortConfig(s: State, id: string, patch: ConfigPatch): (r: State)
    ensures |r.effortConfigs| == |s.effortConfigs|
    ensures forall i :: 0 <= i < |s.effortConfigs| ==>
      r.effortConfigs[i] == if s.effortConfigs[i].id == id then MergeConfig(s.effortConfigs[i], patch) else s.effortConfigs[i]
    ensures (forall i :: 0 <= i < |s.effortConfigs| ==> s.effortConfigs[i].id != id) ==> r == s
    ensures r.features == s.features
  {
    s.(effortConfigs := PatchConfigs(s.effortConfigs, id, patch))
  }

  /** `deleteEffortConfig`: drop every tier with that id. */
  function DeleteEffortConfig(s: State, id: string): (r: State)
    ensures forall i :: 0 <= i < |r.effortConfigs| ==> r.effortConfigs[i].id != id && r.effortConfigs[i] in s.effortConfigs
    ensures forall i :: 0 <= i < |s.effortConfigs| && s.effortConfigs[i].id != id ==> s.effortConfigs[i] in r.effortConfigs
    ensures (forall i :: 0 <= i < |s.effortConfigs| ==> s.effortConfigs[i].id != id) ==> r == s
    ensures r.features == s.features
  {
    if forall i :: 0 <= i < |s.effortConfigs| ==> s.effortConfigs[i].id != id then
      Lists.FilterKeepsAll(s.effortConfigs, ConfigIdIsNot(id));
      s.(effortConfigs := RemoveConfigs(s.effortConfigs, id))
    else
      s.(effortConfigs := RemoveConfigs(s.effortConfigs, id))
  }

  /** Applying the same feature update twice is applying it once. */
  lemma UpdateFeatureIdempotent(s: State, id: string, patch: FeaturePatch)
    ensures UpdateFeature(UpdateFeature(s, id, patch), id, patch) == UpdateFeature(s, id, patch)
  {
    var once := UpdateFeature(s, id, patch);
    var twice := UpdateFeature(once, id, patch);
    forall i | 0 <= i < |s.features|
      ensures twice.features[i] == once.features[i]
    {
      if s.features[i].id == id {
        assert MergeFeature(MergeFeature(s.features[i], patch), patch) == MergeFeature(s.features[i], patch);
      }
    }
  }

  /** Deleting the same id twice is deleting it once. */
  lemma DeleteFeatureIdempotent(s: State, id: string)
    ensures DeleteFeature(DeleteFeature(s, id), id) == DeleteFeature(s, id)
  {
    Lists.FilterIdempotent(s.features, FeatureIdIsNot(id));
  }

  /** Deleting distributes over any split of the list, so the survivors keep
      their relative order. */
  lemma DeleteFeatureKeepsOrder(s: State, id: string, front: seq<Feature>, back: seq<Feature>)
    requires s.features == front + back
    ensures DeleteFeature(s, id).features == DeleteFeature(s.(features := front), id).features + DeleteFeature(s.(features := back), id).features
  {
    Lists.FilterAppend(front, back, FeatureIdIsNot(id));
  }

  /** Deleting the id just added, when no other feature had it, restores the
      store. */
  lemma DeleteUndoesAddFeature(s: State, draft: FeatureDraft, newId: string)
    requires forall i :: 0 <= i < |s.features| ==> s.features[i].id != newId
    ensures DeleteFeature(AddFeature(s, draft, newId), newId) == s
  {
    Lists.FilterAppend(s.features, [draft.WithId(newId)], FeatureIdIsNot(newId));
    Lists.FilterKeepsAll(s.features, FeatureIdIsNot(newId));
    Lists.FilterSingle(draft.WithId(newId), FeatureIdIsNot(newId));
    assert s.features + [] == s.features;
  }

  /** Applying the same tier update twice is applying it once. */
  lemma UpdateEffortConfigIdempotent(s: State, id: string, patch: ConfigPatch)
    ensures UpdateEffortConfig(UpdateEffortConfig(s, id, patch), id, patch) == UpdateEffortConfig(s, id, patch)
  {
    var once := UpdateEffortConfig(s, id, patch);
    var twice := UpdateEffortConfig(once, id, patch);
    forall i | 0 <= i < |s.effortConfigs|
      ensures twice.effortConfigs[i] == once.effortConfigs[i]
    {
      if s.effortConfigs[i].id == id {
        assert MergeConfig(MergeConfig(s.effortConfigs[i], patch), patch) == MergeConfig(s.effortConfigs[i], patch);
      }
    }
  }

  /** Deleting the same tier id twice is deleting it once. */
  lemma DeleteEffortConfigIdempotent(s: State, id: string)
    ensures DeleteEffortConfig(DeleteEffortConfig(s, id), id) == DeleteEffortConfig(s, id)
  {
    Lists.FilterIdempotent(s.effortConfigs, ConfigIdIsNot(id));
  }

  /** Tier deletion distributes over any split of the list. */
  lemma DeleteEffortConfigKeepsOrder(s: State, id: string, front: seq<EffortConfig>, back: seq<EffortConfig>)
    requires s.effortConfigs == front + back
    ensures DeleteEffortConfig(s, id).effortConfigs ==
      DeleteEffortConfig(s.(effortConfigs := front), id).effortConfigs + DeleteEffortConfig(s.(effortConfigs := back), id).effortConfigs
  {
    Lists.FilterAppend(front, back, ConfigIdIsNot(id));
  }

  /** Deleting the tier id just added, when no other tier had it, restores
      the store. */
  lemma DeleteUndoesAddEffortConfig(s: State, draft: ConfigDraft, newId: string)
    requires forall i :: 0 <= i < |s.effortConfigs| ==> s.effortConfigs[i].id != newId
    ensures DeleteEffortConfig(AddEffortConfig(s, draft, newId), newId) == s
  {
    Lists.FilterAppend(s.effortConfigs, [draft.WithId(newId)], ConfigIdIsNot(newId));
    Lists.FilterKeepsAll(s.effortConfigs, ConfigIdIsNot(newId));
    Lists.FilterSingle(draft.WithId(newId), ConfigIdIsNot(newId));
    assert s.effortConfigs + [] == s.effortConfigs;
  }
}

=== FILE: outcomes.dfy ===
/** Values that cross the boundary between the client stores and the remote
    gateway: optional values, what a rejected promise carries, and how one
    gateway call settled. */
module Outcomes {

  /** An optional value; `None` stands for JavaScript's `null`/`undefined`. */
  datatype Option<+T> = None | Some(value: T) {

    /** The value, or `default` when absent (`x ?? default`). */
    function GetOr(default: T): T {
      match this
      case Some(v) => v
      case None => default
    }
  }

  /** What a `throw` or a rejected promise carries: an `Error` object with its
      message, a bare string, or any other value. */
  datatype Thrown = Error(message: string) | Text(text: string) | Other

  /** How one awaited gateway call settled: the value it resolved to, or what
      it threw. */
  datatype Outcome<+T> = Ok(value: T) | Err(thrown: Thrown)

  /** `error instanceof Error ? error.message : fallback`, the message every
      client store records when an operation fails. */
  function MessageOf(t: Thrown, fallback: string): string {
    match t
    case Error(m) => m
    case _ => fallback
  }
}

=== FILE: project_store.dfy ===
/** The newer project store: no loading or error bookkeeping; every call
    acts only when the response envelope says `success`, the first fetched
    project is selected when nothing is, and a created project becomes the
    selection. */
module ProjectStore {
  import opened Outcomes
  import opened Domain
  import ApiUtils
  import ApiClient

  datatype State = State(projects: seq<Project>, currentProject: Option<Project>)

  function Init(): State {
    State([], None)
  }

  /** The envelope carries a payload to act on. */
  predicate Succeeded<T>(body: ApiUtils.Envelope<T>) {
    body.success && body.data.Some?
  }

  /** `setCurrentProject(project)` */
  function SetCurrentProject(s: State, project: Project): (r: State)
    ensures r.currentProject == Some(project) && r.projects == s.projects
  {
    s.(currentProject := Some(project))
  }

  /** `fetchProjects`: on success the list is replaced, and the first project
      becomes the selection only when there was none. */
  function FetchProjects(s: State, body: ApiUtils.Envelope<seq<Project>>): (r: State)
    ensures !Succeeded(body) ==> r == s
    ensures Succeeded(body) ==> r.projects == body.data.value
    ensures s.currentProject.Some? ==> r.currentProject == s.currentProject
    ensures Succeeded(body) && s.currentProject.None? && |body.data.value| > 0 ==> r.currentProject == Some(body.data.value[0])
    ensures Succeeded(body) && s.currentProject.None? && |body.data.value| == 0 ==> r.currentProject.None?
  {
    if !Succeeded(body) then s
    else
      var ps := body.data.value;
      State(ps, if s.currentProject.None? && |ps| > 0 then Some(ps[0]) else s.currentProject)
  }

  /** The request `createProject` builds by hand: the API client's POST. */
  function CreateProjectCall(data: NewProject): (r: ApiClient.Request<NewProject>)
    ensures r == ApiClient.Create(ApiClient.Projects, data)
  {
    ApiClient.Request(ApiClient.Path(ApiClient.Projects), ApiClient.Post, Some(data), map[ApiClient.ContentType := ApiClient.Json])
  }

  /** `createProject`: on success the new project goes to the front and
      becomes the selection. */
  function CreateProject(s: State, body: ApiUtils.Envelope<Project>): (r: State)
    ensures !Succeeded(body) ==> r == s
    ensures Succeeded(body) ==> r.projects == [body.data.value] + s.projects
    ensures Succeeded(body) ==> r.currentProject == Some(body.data.value)
  {
    if !Succeeded(body) then s
    else State([body.data.value] + s.projects, Some(body.data.value))
  }

  /** The request `updateProject` builds by hand: the API client's PATCH. */
  function UpdateProjectCall(id: string, data: ProjectPatch): (r: ApiClient.Request<ProjectPatch>)
    ensures r == ApiClient.Update(ApiClient.Projects, id, data)
  {
    ApiClient.Request(ApiClient.ItemUrl(ApiClient.Projects, id), ApiClient.Patch, Some(data), map[ApiClient.ContentType := ApiClient.Json])
  }

  /** `currentProject?.id === id` */
  predicate IsCurrent(current: Option<Project>, id: string) {
    current.Some? && current.value.id == id
  }

  /** `updateProject(id, data)`: on success the returned fields are merged
      into the listed projects with that id, and into the selection exactly
      when it has that id. */
  function UpdateProject(s: State, id: string, body: ApiUtils.Envelope<ProjectPatch>): (r: State)
    ensures !Succeeded(body) ==> r == s
    ensures Succeeded(body) ==> |r.projects| == |s.projects|
    ensures Succeeded(body) ==> forall i :: 0 <= i < |s.projects| ==>
      r.projects[i] == if s.projects[i].id == id then MergeProject(s.projects[i], body.data.value) else s.projects[i]
    ensures Succeeded(body) && IsCurrent(s.currentProject, id) ==> r.currentProject == Some(MergeProject(s.currentProject.value, body.data.value))
    ensures !IsCurrent(s.currentProject, id) ==> r.currentProject == s.currentProject
  {
    if !Succeeded(body) then s
    else
      var d := body.data.value;
      State(PatchProjects(s.projects, id, d),
            if IsCurrent(s.currentProject, id) then Some(MergeProject(s.currentProject.value, d)) else s.currentProject)
  }

  /** Once a project is selected, later fetches keep it, whatever order or
      contents the lists come back in. */
  lemma {:induction false} FetchesKeepFirstSelection(s: State, bodies: seq<ApiUtils.Envelope<seq<Project>>>)
    requires s.currentProject.None? && |bodies| > 0 && Succeeded(bodies[0]) && |bodies[0].data.value| > 0
    ensures FetchAll(s, bodies).currentProject == Some(bodies[0].data.value[0])
  {
    if |bodies| > 1 {
      FetchesKeepFirstSelection(s, bodies[..|bodies| - 1]);
      assert bodies[..|bodies| - 1][0] == bodies[0];
    }
  }

  /** Successive fetches, first to last. */
  function FetchAll(s: State, bodies: seq<ApiUtils.Envelope<seq<Project>>>): State {
    if |bodies| == 0 then s else FetchProjects(FetchAll(s, bodies[..|bodies| - 1]), bodies[|bodies| - 1])
  }

  /** The selection is one of the listed projects, or there is none. */
  predicate SelectionListed(s: State) {
    s.currentProject.None? || s.currentProject.value in s.projects
  }

  /** Creating a project keeps the selection listed. */
  lemma CreateKeepsSelectionListed(s: State, body: ApiUtils.Envelope<Project>)
    requires SelectionListed(s)
    ensures SelectionListed(CreateProject(s, body))
  {
    if Succeeded(body) {
      assert CreateProject(s, body).projects[0] == body.data.value;
    }
  }

  /** Updating keeps the selection listed: the selection and its list entry
      get the same merge. */
  lemma UpdateKeepsSelectionListed(s: State, id: string, body: ApiUtils.Envelope<ProjectPatch>)
    requires SelectionListed(s)
    ensures SelectionListed(UpdateProject(s, id, body))
  {
    var r := UpdateProject(s, id, body);
    if Succeeded(body) && s.currentProject.Some? {
      var i :| 0 <= i < |s.projects| && s.projects[i] == s.currentProject.value;
      assert r.projects[i] == r.currentProject.value;
    }
  }

  /** Fetching does not keep the selection listed: a selection made earlier
      survives a fetch whose list no longer contains it. */
  lemma FetchCanOrphanSelection(p: Project)
    ensures var s := State([p], Some(p));
      SelectionListed(s) && !SelectionListed(FetchProjects(s, ApiUtils.Envelope(true, Some([]), None)))
  {
  }
}

=== FILE: summary.dfy ===
/** The priority summary of the summary panel: features folded into a record
    keyed by priority, then read out in the fixed order Must, Should, Could,
    with zero buckets for absent priorities, and a grand total. */
module Summary {
  import opened Domain
  import opened Costing
  import Lists

  /** `{ count, cost, days }` */
  datatype Bucket = Bucket(count: nat, cost: nat, days: nat) {
    function Plus(other: Bucket): Bucket {
      Bucket(count + other.count, cost + other.cost, days + other.days)
    }
  }

  function Empty(): Bucket { Bucket(0, 0, 0) }

  /** `{ priority, count, cost, days }`, one card of the panel. */
  datatype Entry = Entry(priority: string, bucket: Bucket)

  /** `priorityOrder` */
  const PriorityOrder: seq<string> := ["Must", "Should", "Could"]

  /** Count, cost and days of a list of features. */
  function Measure(sel: seq<Feature>, configs: seq<EffortConfig>): Bucket {
    Bucket(|sel|, TotalCost(sel, configs), TotalDays(sel, configs))
  }

  /** Reference: count, cost and days of exactly the features carrying
      priority `p`. */
  function BucketOf(features: seq<Feature>, configs: seq<EffortConfig>, p: string): Bucket {
    Measure(Selected(features, p), configs)
  }

  /** `acc[p] || { count: 0, cost: 0, days: 0 }` */
  function Get(acc: map<string, Bucket>, p: string): Bucket {
    if p in acc then acc[p] else Empty()
  }

  /** The reducer's body: one feature added to the bucket of its priority. */
  function Step(acc: map<string, Bucket>, f: Feature, configs: seq<EffortConfig>): map<string, Bucket> {
    acc[f.priority := Get(acc, f.priority).Plus(Contribution(f, configs))]
  }

  /** `features.reduce(step, {})`, folding from the first feature to the last. */
  function Accumulate(features: seq<Feature>, configs: seq<EffortConfig>): map<string, Bucket> {
    if |features| == 0 then map[]
    else Step(Accumulate(features[..|features| - 1], configs), features[|features| - 1], configs)
  }

  lemma MeasureSnoc(sel: seq<Feature>, f: Feature, configs: seq<EffortConfig>)
    ensures Measure(sel + [f], configs) == Measure(sel, configs).Plus(Contribution(f, configs))
  {
    TotalsSnoc(sel, f, configs);
  }

  lemma BucketOfEmpty(configs: seq<EffortConfig>, p: string)
    ensures BucketOf([], configs, p) == Empty()
  {
  }

  lemma BucketOfSnocHit(features: seq<Feature>, f: Feature, configs: seq<EffortConfig>)
    ensures BucketOf(features + [f], configs, f.priority) == BucketOf(features, configs, f.priority).Plus(Contribution(f, configs))
  {
    SelectedSnocHit(features, f);
    MeasureSnoc(Selected(features, f.priority), f, configs);
  }

  lemma BucketOfSnocMiss(features: seq<Feature>, f: Feature, configs: seq<EffortConfig>, p: string)
    requires f.priority != p
    ensures BucketOf(features + [f], configs, p) == BucketOf(features, configs, p)
  {
    SelectedSnocMiss(features, f, p);
  }

  /** Adding one feature to a list adds its contribution to the reference
      bucket of its own priority and leaves every other bucket alone. */
  lemma BucketOfSnoc(features: seq<Feature>, f: Feature, configs: seq<EffortConfig>, p: string)
    ensures BucketOf(features + [f], configs, p) ==
      if f.priority == p then BucketOf(features, configs, p).Plus(Contribution(f, configs))
      else BucketOf(features, configs, p)
  {
    if f.priority == p {
      BucketOfSnocHit(features, f, configs);
    } else {
      BucketOfSnocMiss(features, f, configs, p);
    }
  }

  /** What one feature adds to its bucket. */
  function Contribution(f: Feature, configs: seq<EffortConfig>): Bucket {
    Bucket(1, CostOf(configs, f.effort), DaysOf(configs, f.effort))
  }

  /** The record built by the fold agrees with the reference bucket for
      every priority taken as an ordinary key, and has a key exactly for the
      priorities that occur. */
  lemma {:induction false} AccumulateMatchesReference(features: seq<Feature>, configs: seq<EffortConfig>, p: string)
    ensures Get(Accumulate(features, configs), p) == BucketOf(features, configs, p)
    ensures p in Accumulate(features, configs) <==> BucketOf(features, configs, p).count > 0
  {
    if |features| > 0 {
      var init, f := features[..|features| - 1], features[|features| - 1];
      assert features == init + [f];
      AccumulateMatchesReference(init, configs, p);
      BucketOfSnoc(init, f, configs, p);
    }
  }

  /** `calculateSummary()`: exactly three entries, Must, Should and Could in
      that order, each the reference bucket of its priority (zero when no
      feature carries it). */
  function CalculateSummary(features: seq<Feature>, configs: seq<EffortConfig>): (r: seq<Entry>)
    ensures |r| == 3
    ensures r[0] == Entry("Must", BucketOf(features, configs, "Must"))
    ensures r[1] == Entry("Should", BucketOf(features, configs, "Should"))
    ensures r[2] == Entry("Could", BucketOf(features, configs, "Could"))
  {
    var acc := Accumulate(features, configs);
    AccumulateMatchesReference(features, configs, "Must");
    AccumulateMatchesReference(features, configs, "Should");
    AccumulateMatchesReference(features, configs, "Could");
    [Entry("Must", Get(acc, "Must")), Entry("Should", Get(acc, "Should")), Entry("Could", Get(acc, "Could"))]
  }

  /** The entries follow `priorityOrder`. */
  lemma SummaryFollowsPriorityOrder(features: seq<Feature>, configs: seq<EffortConfig>)
    ensures forall k :: 0 <= k < |PriorityOrder| ==> CalculateSummary(features, configs)[k].priority == PriorityOrder[k]
  {
    var r := CalculateSummary(features, configs);
    assert |r| == |PriorityOrder| == 3;
    assert r[0].priority == PriorityOrder[0];
    assert r[1].priority == PriorityOrder[1];
    assert r[2].priority == PriorityOrder[2];
  }

  /** The priority is one of the three in `PriorityOrder`. */
  predicate IsListed(f: Feature) {
    f.priority == "Must" || f.priority == "Should" || f.priority == "Could"
  }

  /** A priority no feature carries still gets its card, with all zeros. */
  lemma AbsentPriorityIsZero(features: seq<Feature>, configs: seq<EffortConfig>, k: nat)
    requires k < 3
    requires forall i :: 0 <= i < |features| ==> features[i].priority != CalculateSummary(features, configs)[k].priority
    ensures CalculateSummary(features, configs)[k].bucket == Empty()
  {
    var p := CalculateSummary(features, configs)[k].priority;
    SelectedNone(features, p);
    BucketOfEmpty(configs, p);
    assert Selected([], p) == [];
  }

  /** A feature whose priority is not one of the three shows on no card. */
  lemma UnlistedPriorityIgnored(features: seq<Feature>, configs: seq<EffortConfig>, f: Feature)
    requires !IsListed(f)
    ensures CalculateSummary(features + [f], configs) == CalculateSummary(features, configs)
  {
    BucketOfSnocMiss(features, f, configs, "Must");
    BucketOfSnocMiss(features, f, configs, "Should");
    BucketOfSnocMiss(features, f, configs, "Could");
  }

  /** A feature whose effort label matches no tier adds one to its bucket's
      count and nothing to its cost or days. */
  lemma UnmatchedEffortCountsOnly(features: seq<Feature>, configs: seq<EffortConfig>, f: Feature)
    requires Unmatched(configs, f.effort)
    ensures BucketOf(features + [f], configs, f.priority) == BucketOf(features, configs, f.priority).Plus(Bucket(1, 0, 0))
  {
    BucketOfSnocHit(features, f, configs);
  }

  /** `summary.reduce(...)`: componentwise sum of the cards, first to last. */
  function Totals(summary: seq<Entry>): Bucket {
    if |summary| == 0 then Empty()
    else Totals(summary[..|summary| - 1]).Plus(summary[|summary| - 1].bucket)
  }

  /** The features carrying one of the three displayed priorities. */
  function Listed(features: seq<Feature>): seq<Feature> {
    Lists.Filter(features, IsListed)
  }

  /** Count, cost and days of the features with a displayed priority. */
  function ListedBucket(features: seq<Feature>, configs: seq<EffortConfig>): Bucket {
    Measure(Listed(features), configs)
  }

  lemma ListedBucketEmpty(configs: seq<EffortConfig>)
    ensures ListedBucket([], configs) == Empty()
  {
  }

  lemma ListedBucketSnocHit(features: seq<Feature>, f: Feature, configs: seq<EffortConfig>)
    requires IsListed(f)
    ensures ListedBucket(features + [f], configs) == ListedBucket(features, configs).Plus(Contribution(f, configs))
  {
    Lists.FilterAppend(features, [f], IsListed);
    Lists.FilterSingle(f, IsListed);
    assert Listed(features + [f]) == Listed(features) + [f];
    MeasureSnoc(Listed(features), f, configs);
  }

  lemma ListedBucketSnocMiss(features: seq<Feature>, f: Feature, configs: seq<EffortConfig>)
    requires !IsListed(f)
    ensures ListedBucket(features + [f], configs) == ListedBucket(features, configs)
  {
    Lists.FilterAppend(features, [f], IsListed);
    Lists.FilterSingle(f, IsListed);
    assert Listed(features + [f]) == Listed(features) + [];
    assert Listed(features) + [] == Listed(features);
  }

  /** The sum of the three reference buckets. */
  function ThreeBuckets(features: seq<Feature>, configs: seq<EffortConfig>): Bucket {
    BucketOf(features, configs, "Must").Plus(BucketOf(features, configs, "Should")).Plus(BucketOf(features, configs, "Could"))
  }

  lemma PlusMovesLast(a: Bucket, b: Bucket, c: Bucket, d: Bucket)
    ensures a.Plus(d).Plus(b).Plus(c) == a.Plus(b).Plus(c).Plus(d)
    ensures a.Plus(b.Plus(d)).Plus(c) == a.Plus(b).Plus(c).Plus(d)
    ensures a.Plus(b).Plus(c.Plus(d)) == a.Plus(b).Plus(c).Plus(d)
  {
  }

  lemma ThreeBucketsSnocHit(init: seq<Feature>, f: Feature, configs: seq<EffortConfig>)
    requires IsListed(f)
    ensures ThreeBuckets(init + [f], configs) == ThreeBuckets(init, configs).Plus(Contribution(f, configs))
  {
    var m, sh, c := BucketOf(init, configs, "Must"), BucketOf(init, configs, "Should"), BucketOf(init, configs, "Could");
    var d := Contribution(f, configs);
    PlusMovesLast(m, sh, c, d);
    BucketOfSnocHit(init, f, configs);
    if f.priority == "Must" {
      BucketOfSnocMiss(init, f, configs, "Should");
      BucketOfSnocMiss(init, f, configs, "Could");
      assert ThreeBuckets(init + [f], configs) == m.Plus(d).Plus(sh).Plus(c);
    } else if f.priority == "Should" {
      BucketOfSnocMiss(init, f, configs, "Must");
      BucketOfSnocMiss(init, f, configs, "Could");
      assert ThreeBuckets(init + [f], configs) == m.Plus(sh.Plus(d)).Plus(c);
    } else {
      BucketOfSnocMiss(init, f, configs, "Must");
      BucketOfSnocMiss(init, f, configs, "Should");
      assert ThreeBuckets(init + [f], configs) == m.Plus(sh).Plus(c.Plus(d));
    }
  }

  lemma ThreeBucketsSnocMiss(init: seq<Feature>, f: Feature, configs: seq<EffortConfig>)
    requires !IsListed(f)
    ensures ThreeBuckets(init + [f], configs) == ThreeBuckets(init, configs)
  {
    BucketOfSnocMiss(init, f, configs, "Must");
    BucketOfSnocMiss(init, f, configs, "Should");
    BucketOfSnocMiss(init, f, configs, "Could");
  }

  lemma ThreeBucketsEmpty(configs: seq<EffortConfig>)
    ensures ThreeBuckets([], configs) == Empty()
  {
    BucketOfEmpty(configs, "Must");
    BucketOfEmpty(configs, "Should");
    BucketOfEmpty(configs, "Could");
  }

  lemma ThreeBucketsStep(init: seq<Feature>, f: Feature, configs: seq<EffortConfig>)
    requires ThreeBuckets(init, configs) == ListedBucket(init, configs)
    ensures ThreeBuckets(init + [f], configs) == ListedBucket(init + [f], configs)
  {
    if IsListed(f) {
      ThreeBucketsSnocHit(init, f, configs);
      ListedBucketSnocHit(init, f, configs);
    } else {
      ThreeBucketsSnocMiss(init, f, configs);
      ListedBucketSnocMiss(init, f, configs);
    }
  }

  /** The three buckets together hold exactly the listed features. */
  lemma {:induction false} ThreeBucketsCoverListed(features: seq<Feature>, configs: seq<EffortConfig>)
    ensures ThreeBuckets(features, configs) == ListedBucket(features, configs)
  {
    if |features| == 0 {
      assert features == [];
      ThreeBucketsEmpty(configs);
      ListedBucketEmpty(configs);
    } else {
      var init, f := features[..|features| - 1], features[|features| - 1];
      assert features == init + [f];
      ThreeBucketsCoverListed(init, configs);
      ThreeBucketsStep(init, f, configs);
    }
  }

  lemma TotalsOfThree(s: seq<Entry>)
    requires |s| == 3
    ensures Totals(s) == s[0].bucket.Plus(s[1].bucket).Plus(s[2].bucket)
  {
    assert Totals(s[..1]) == s[0].bucket by {
      assert s[..1][..0] == [];
    }
    assert Totals(s[..2]) == s[0].bucket.Plus(s[1].bucket) by {
      assert s[..2][..1] == s[..1];
    }
  }

  /** The project totals count, price and schedule exactly the features whose
      priority is Must, Should or Could; any other priority is left out. */
  lemma TotalsCountListedFeatures(features: seq<Feature>, configs: seq<EffortConfig>)
    ensures Totals(CalculateSummary(features, configs)) == ListedBucket(features, configs)
  {
    var s := CalculateSummary(features, configs);
    TotalsOfThree(s);
    ThreeBucketsCoverListed(features, configs);
  }

  /** When every priority is one of the three, the total count is the number
      of features. */
  lemma TotalsCountAllWhenListed(features: seq<Feature>, configs: seq<EffortConfig>)
    requires forall i :: 0 <= i < |features| ==> IsListed(features[i])
    ensures Totals(CalculateSummary(features, configs)).count == |features|
  {
    TotalsCountListedFeatures(features, configs);
    Lists.FilterKeepsAll(features, IsListed);
  }

  /** The Small-tier scenario: one Must feature of 5 days at 1000 a day. */
  lemma SmallMustScenario()
    ensures var small := EffortConfig("2", "Small", 5, 1000);
            var f := Feature("1", "Login", "", "Small", "Must", "");
            CalculateSummary([f], [small])
            == [Entry("Must", Bucket(1, 5000, 5)), Entry("Should", Empty()), Entry("Could", Empty())]
  {
    var small := EffortConfig("2", "Small", 5, 1000);
    var f := Feature("1", "Login", "", "Small", "Must", "");
    assert Contribution(f, [small]) == Bucket(1, 5000, 5) by {
      assert FirstMatch([small], "Small", 0);
    }
    assert [] + [f] == [f];
    assert BucketOf([f], [small], "Must") == Bucket(1, 5000, 5) by {
      BucketOfEmpty([small], "Must");
      BucketOfSnocHit([], f, [small]);
    }
    assert BucketOf([f], [small], "Should") == Empty() by {
      BucketOfEmpty([small], "Should");
      BucketOfSnocMiss([], f, [small], "Should");
    }
    assert BucketOf([f], [small], "Could") == Empty() by {
      BucketOfEmpty([small], "Could");
      BucketOfSnocMiss([], f, [small], "Could");
    }
  }
}
